=== FILE: README.md ===
# Shop backend core in Dafny

A model of the core of an Express e-commerce backend. It has three layers.

- **The record store.** The storage service holds four ordered collections: products, users, orders and carts. Each collection offers `findAll`, `findById`, `findOne`, `create`, `update` and `remove` (`Store`). `init` seeds demo data into an empty store (`Storage`).
- **The domain repositories** (`Products`, `Users`, `Carts`, `Orders`):
  - the active-product listing;
  - one lazily created cart per user;
  - cart lines merged by `productId`;
  - orders snapshotted from the cart and priced as Σ qty × price, after which the cart is cleared;
  - status overwrites.
- **The decision layer.** This is the `auth` and `adminOnly` middleware (`AuthMiddleware`) and the cart, order, product and account controllers (`CartController`, `OrdersController`, `ProductsController`, `AuthController`). They turn repository outcomes into the replies 200, 201, 204, 400, 401, 403, 404 and 409.

How the model is built:

- **Records** are JSON objects, `map<string, Value>` (`Json`). The JavaScript semantics the code relies on are written out:
  - `===` compares primitives by value and never matches a caller's array or object against a stored one;
  - truthiness, `x || d`, `x === false` and the `undefined` read of a missing field are all modelled.
- **Every operation is a pure function** from the store (`Db`) to the new store and a result. Controllers return a `Step`: the new store plus a `Reply(status, body)`, or `Thrown` when the handler throws.
- **Nondeterministic and foreign inputs are parameters:**
  - **Generated values.** Each `create` takes a `Stamp`: the generated id and the two ISO timestamps. Each `update` takes the current time `now`.
  - **Token verification** is `verify: string -> Option<string>`. It gives the `sub` claim of an accepted token, and None for a token it rejects or one without a subject.
  - **Hashing and signing** are functions. `hash` stands for bcrypt hashing, `checkHash` for the bcrypt comparison, and `sign` for signing a token.
  - **Request validation** is a `Checked<T>` body: either the first Joi message, or the validated value. What the validators guarantee (a quantity of at least 1, a price of at least 0) is the precondition of the endpoint that uses it.

The cart lines are stored as JSON `items`. `CartLines` decodes them into `Line(productId, qty)` and encodes them back. Both round trips are proved.

The store invariant `Schema.Valid` covers the products and the carts:
- every product carries a numeric price of at least 0;
- every cart has a string id and userId and decodable items with no two lines for the same product;
- cart ids are pairwise distinct, and there is at most one cart per user.

`Schema.PositiveQuantities` adds that every line holds at least 1 unit. `init` and every operation keep both. The cart operations, the cart endpoints and order creation require `Valid` and `CanCreateCart`, which says a generated cart id must not already be taken. `addItem`'s endpoint and `updateLine` also require the validated quantity to be at least 1.

## Model

| member | source | states |
|---|---|---|
| Store.FindAll | backend/src/services/storage.js:144-148 | with no filter, the whole collection; otherwise exactly the records the filter accepts, each as often as it is stored |
| Store.Filter | backend/src/services/storage.js:147 | the filtered list holds a record exactly when the collection holds it and the filter accepts it, and is never longer |
| Store.FilterConcat | backend/src/services/storage.js:147 | filtering keeps relative order: it distributes over concatenation |
| Store.FilterCount | backend/src/services/storage.js:147 | filtering keeps each accepted record with its multiplicity and drops every other |
| Store.FilterKeepsAll | backend/src/services/storage.js:194-196 | the filter returns the whole list iff it accepts every record, and is strictly shorter otherwise, so comparing lengths detects a removal |
| Store.FirstIndex | backend/src/services/storage.js:152 | the index found satisfies the predicate and no earlier index does; None iff no index does |
| Store.FindById | backend/src/services/storage.js:150-153 | null iff no record carries the id; otherwise the first record that does |
| Store.FindOne | backend/src/services/storage.js:155-159 | null iff no record matches every entry of `where`; otherwise the first record that does |
| Store.FindOneEmptyWhere | backend/src/services/storage.js:155-159 | `findOne({})` is the first record, or null on an empty collection |
| Store.FindOneAppend | backend/src/services/storage.js:155-159 | appending a record changes a `findOne` only when nothing matched before |
| Store.Create | backend/src/services/storage.js:161-173 | one record appended at the end, earlier records unchanged; it carries every payload field with the payload's value, and the generated id and timestamps only for keys the payload lacks |
| Store.Update | backend/src/services/storage.js:175-189 | null iff no record has the id, with the collection unchanged; otherwise only the first record with the id is replaced, in place, by the merge of its fields and the updates, with the argument id and a fresh `updatedAt` |
| Store.Remove | backend/src/services/storage.js:191-199 | reports a change iff some record had the id; every record with the id is gone, the rest keep their order and multiplicity; nothing changes otherwise |
| Store.RemoveConcat | backend/src/services/storage.js:195 | removal distributes over concatenation, so it preserves the order of the rest |
| Storage.CreateEach | backend/src/services/storage.js:245 | creating a list of payloads appends one record per payload, in order, each built from its own stamp |
| Storage.Seed | backend/src/services/storage.js:204-258 | the three demo products only when products were empty, the admin only when users were empty; orders and carts untouched |
| Storage.Init | backend/src/services/storage.js:31-51 | a no-op once initialized; seeds when products or users are empty; adds exactly 3 products or 1 user only to an empty collection, keeping what was there; both are non-empty afterwards |
| Storage.SeededAdmin | backend/src/services/storage.js:248-256 | the seeded user has the admin role, the demo password marker, the demo email, is active, and takes the generated id |
| Storage.RestartDoesNotReseed | backend/src/services/storage.js:41-50 | a second `init` over the collections a first one seeded adds nothing |
| Schema.InitKeepsValid | backend/src/services/storage.js:204-257 | seeding keeps the store invariant: demo prices are numbers of at least 0 and carts are untouched |
| Schema.DemoProductPriced | backend/src/services/storage.js:211-235 | every demo product carries a non-negative numeric price |
| Schema.FindCart | backend/src/models/index.js:70 | null iff no cart's `userId` is the user's id; otherwise the first cart whose `userId` is |
| Schema.SaveItems | backend/src/models/index.js:86 | writing a user's lines back keeps the invariant; the cart is replaced in place, at its slot, by the merge of its fields with the new `items`, keeping its id and refreshing `updatedAt`; the stored lines are exactly the given ones and every other user's cart is left alone |
| Schema.UserLinesNoDup | backend/src/models/index.js:80-85 | in a valid store no cart holds two lines for one product |
| Products.All | backend/src/models/index.js:12-15 | exactly the products whose `active` is not `false` (a missing flag counts as active), each with its multiplicity |
| Products.AllInOrder | backend/src/models/index.js:14 | the listing keeps insertion order: it distributes over concatenation |
| Products.ById | backend/src/models/index.js:17-20 | null iff no product has the id; otherwise the first product that has it |
| Products.Create | backend/src/models/index.js:22-25 | one product appended with exactly the given fields plus the generated id and timestamps for keys the data lacks, and nothing else; a priced payload keeps the invariant |
| Products.Update | backend/src/models/index.js:27-30 | null iff the id is unknown, with nothing changed; otherwise the first product with the id is replaced in place by the merge of its fields and the updates, which is what is returned, every other product kept; a valid price keeps the invariant |
| Products.UpdateKeepsPrices | backend/src/models/index.js:27-30 | an update with a valid or absent price keeps every product priced |
| Products.Remove | backend/src/models/index.js:32-35 | true iff a product had the id; exactly those are gone, the rest keep their order and multiplicity; the invariant is kept |
| Users.ById | backend/src/models/index.js:45-48 | null iff no user has the id; otherwise the first user that has it |
| Users.ByEmail | backend/src/models/index.js:50-53 | null iff no user has exactly that email; otherwise the first user that does |
| Users.ByEmailAppend | backend/src/models/index.js:50-58 | a created user is found by email exactly when no earlier user holds it |
| Users.Create | backend/src/models/index.js:55-58 | one user appended with exactly the given fields plus the generated id and timestamps for keys the data lacks, and nothing else |
| Carts.GetOrCreateByUser | backend/src/models/index.js:68-75 | an existing cart is returned with nothing changed; otherwise a cart with exactly the members id, createdAt, updatedAt (all generated), userId and `items: []` is appended; either way it is then the user's cart |
| Carts.GetOrCreateIdempotent | backend/src/models/index.js:68-75 | a second call returns the same cart and creates nothing |
| Carts.AddItem | backend/src/models/index.js:77-87 | the user's lines become `AddQty` of the old ones with the default quantity 1; the cart id is kept; other carts and collections are untouched; the cart is written back in place at its slot as its fields merged with the new `items`, keeping its id, `createdAt` and `userId`, with `updatedAt` the current time; a cart created on the way is first appended as a new empty cart with the generated id and timestamps |
| Carts.RemoveItem | backend/src/models/index.js:89-94 | the user's lines lose every line for the product; the cart record remains with its id; the cart is written back in place at its slot as its fields merged with the new `items`, keeping its id, `createdAt` and `userId`, with `updatedAt` the current time; a cart created on the way is first appended as a new empty cart with the generated id and timestamps |
| Carts.Clear | backend/src/models/index.js:96-100 | the user's cart is empty afterwards and keeps its id; the cart is written back in place at its slot as its fields merged with the new `items`, keeping its id, `createdAt` and `userId`, with `updatedAt` the current time; a cart created on the way is first appended as a new empty cart with the generated id and timestamps |
| CartLines.DecodeEncode | backend/src/models/index.js:84 | decoding the stored items gives back the lines that were written |
| CartLines.EncodeDecode | backend/src/models/index.js:84 | items that decode are exactly the encoding of their lines |
| CartLines.Find | backend/src/models/index.js:80 | the index found has the product and no earlier line does; None iff no line has it |
| CartLines.AddQty | backend/src/models/index.js:80-85 | an existing line gains `qty` in place, otherwise a line is appended at the end; no-duplicates and positivity are kept |
| CartLines.AddQtyBag | backend/src/models/index.js:80-85 | the product's total quantity rises by `qty`, every other product's stays |
| CartLines.Drop | backend/src/models/index.js:92 | the lines kept are exactly those of other products |
| CartLines.DropKeepsLinesOk | backend/src/models/index.js:92 | removing lines keeps no-duplicates and positivity |
| CartLines.DropBag | backend/src/models/index.js:92 | the product's quantity drops to 0, every other product's stays |
| CartLines.DropConcat | backend/src/models/index.js:92 | removing lines keeps the order of the rest |
| CartLines.DropAbsent | backend/src/models/index.js:92 | removing a product the cart does not hold changes nothing |
| CartLines.SetQty | backend/src/controllers/cart.js:35-38 | the matching line takes the new quantity in place; every other line is untouched |
| CartLines.SetQtyBag | backend/src/controllers/cart.js:35-38 | the product's quantity becomes the new value (not the sum), every other product's stays |
| CartLines.ReduceIsTotal | backend/src/models/index.js:124-128 | the left fold of `reduce` computes the sum Σ price × qty |
| CartLines.TotalConcat | backend/src/models/index.js:124-128 | the total of two carts' lines is the sum of their totals |
| CartLines.TotalNonNegative | backend/src/models/index.js:124-128 | with non-negative prices and quantities the total is non-negative |
| CartLines.TotalIgnoresFree | backend/src/models/index.js:126 | a product priced at 0 contributes nothing to the total |
| Orders.All | backend/src/models/index.js:105-108 | every order, unfiltered and in insertion order |
| Orders.PriceOf | backend/src/models/index.js:125-126 | the found product's numeric price, 0 for a product not found, and never negative in a priced store |
| Orders.TotalIgnoresMissing | backend/src/models/index.js:125-126 | lines for deleted products add nothing to the order total |
| Orders.TotalNonNegativeInValidStore | backend/src/models/index.js:124-128 | the total of any user's cart is non-negative in a valid store |
| Orders.OrderTotal | backend/src/models/index.js:124-128 | the order total is Σ qty × price over the cart lines |
| Orders.NewOrder | backend/src/models/index.js:118-129 | the order appended has exactly the members id, createdAt, updatedAt (all generated), userId, items, status and total: the user, status `pending`, the items as given and their total |
| Orders.OrderShape | backend/src/models/index.js:118-129 | a record created from the order fields holds exactly id, createdAt, updatedAt (generated), userId, items, status `pending` and total |
| Orders.CreateFromCart | backend/src/models/index.js:115-133 | one order appended with exactly the generated id and timestamps, the user, the cart's items at call time, status `pending` and the total at current prices (inactive products included); the user's cart is empty afterwards with its id kept; other carts, products and users untouched; the emptied cart is written back in place as its fields merged with `items: []`, with `updatedAt` the current time |
| Orders.UpdateStatus | backend/src/models/index.js:135-138 | null iff the id is unknown, with nothing changed; otherwise the first order with the id is replaced in place by the returned record, in which `status` takes any given value and every other field but `updatedAt` is kept |
| AuthMiddleware.Split | backend/src/middleware/auth.js:14 | at least one piece, none containing the separator |
| AuthMiddleware.JoinSplit | backend/src/middleware/auth.js:14 | joining the pieces of a split gives back the string |
| AuthMiddleware.SplitJoin | backend/src/middleware/auth.js:14 | splitting the join of separator-free pieces gives back the pieces |
| AuthMiddleware.BearerToken | backend/src/middleware/auth.js:13-16 | a token, when there is one, is non-empty and holds no space |
| AuthMiddleware.BearerTokenShape | backend/src/middleware/auth.js:13-16 | a header yields a token iff it is `Bearer`, one space, a non-empty space-free token, then nothing or a space and anything |
| AuthMiddleware.IdentityOf | backend/src/middleware/auth.js:23 | the request user takes the stored id and email; its role is the stored role when that is truthy and `user` otherwise, its name the stored name when truthy and empty otherwise; it is `admin` iff the stored role is |
| AuthMiddleware.Authenticate | backend/src/middleware/auth.js:10-28 | passes iff the header yields a token, the token verifies, its subject is a stored user and that user is not switched off; otherwise 401 |
| AuthMiddleware.AdminOnly | backend/src/middleware/auth.js:31-37 | passes iff there is a request user whose role is exactly `admin`; otherwise 403 |
| AuthMiddleware.AdminGate | backend/src/middleware/auth.js:10-37 | a request through both gates comes from a stored, active user whose own stored role is `admin` |
| CartController.Show | backend/src/controllers/cart.js:7-11 | 200 with the user's cart; a user without one gets a new cart appended with exactly the generated id and timestamps, the user's id and no items, and nothing else changes; a user with one changes nothing |
| CartController.Add | backend/src/controllers/cart.js:14-25 | 400 on a rejected body before any lookup; 404 for a missing or switched-off product, with nothing changed; 201 otherwise, with the lines after `addItem`, every other user's cart and the other collections untouched; the cart is written back in place at its slot as its fields merged with the new `items`, keeping its id, `createdAt` and `userId`, with `updatedAt` the current time; a cart created on the way is first appended as a new empty cart with the generated id and timestamps |
| CartController.AddRaisesQuantity | backend/src/controllers/cart.js:20-24 | a successful add raises the product's quantity by exactly the requested amount |
| CartController.UpdateLine | backend/src/controllers/cart.js:28-41 | 400 on a rejected body with nothing changed; 404 with the lines unchanged when no line matches; 200 iff a line matches, its quantity replaced; a 404 writes nothing beyond creating the missing cart; on 200 the cart is written back in place as its fields merged with the new `items`, keeping its id and `createdAt`, with `updatedAt` the current time |
| CartController.SetLine | backend/src/controllers/cart.js:33-40 | after validation: 404 leaves the lines as they were, otherwise 200 with the line set to the new quantity; other carts untouched; a 404 writes nothing beyond creating the missing cart; on 200 the cart is written back in place as its fields merged with the new `items`, with `updatedAt` the current time |
| CartController.UpdateLineSetsQuantity | backend/src/controllers/cart.js:35-40 | the product's quantity becomes the new value, every other product's stays |
| CartController.RemoveLine | backend/src/controllers/cart.js:44-49 | always 200 with the cart; the product's lines are gone; an absent line leaves the lines unchanged; every other user's cart and the other collections untouched; the cart is written back in place at its slot as its fields merged with the new `items`, keeping its id, `createdAt` and `userId`, with `updatedAt` the current time; a cart created on the way is first appended as a new empty cart with the generated id and timestamps |
| CartController.Clear | backend/src/controllers/cart.js:52-56 | always 200 with the user's cart, now empty; every other user's cart and the other collections untouched; the cart is written back in place at its slot as its fields merged with the new `items`, keeping its id, `createdAt` and `userId`, with `updatedAt` the current time; a cart created on the way is first appended as a new empty cart with the generated id and timestamps |
| OrdersController.Create | backend/src/controllers/orders.js:6-10 | always 201 with the new order appended, holding exactly the generated id and timestamps, the user, status `pending`, the cart's items and their total; the cart is emptied and keeps its id; products, users and every other user's cart untouched; the emptied cart is written back in place as its fields merged with `items: []`, with `updatedAt` the current time |
| OrdersController.EmptyCartOrder | backend/src/controllers/orders.js:6-10 | an empty cart still yields 201, with empty items and total 0 |
| OrdersController.Mine | backend/src/controllers/orders.js:15 | exactly the orders whose `userId` is the caller's id, each with its multiplicity |
| OrdersController.MineInOrder | backend/src/controllers/orders.js:15 | the caller's orders keep insertion order |
| OrdersController.ListMine | backend/src/controllers/orders.js:13-18 | 200 with exactly the caller's orders, in insertion order; nothing changes |
| OrdersController.AdminList | backend/src/controllers/orders.js:21-24 | 200 with every order, unfiltered and in order |
| OrdersController.AdminUpdateStatus | backend/src/controllers/orders.js:27-35 | 400 with nothing changed when `status` is missing or falsy; then 404 for an unknown id; 200 iff both pass, with the order stored in place as the merge of its fields and the new status, which is the reply body |
| ProductsController.List | backend/src/controllers/products.js:7-11 | 200 with exactly the products not switched off, in insertion order; nothing changes |
| ProductsController.Show | backend/src/controllers/products.js:14-19 | 200 with the product iff it exists and is not switched off, 404 otherwise |
| ProductsController.AdminCreate | backend/src/controllers/products.js:22-28 | 400 with nothing created on a rejected body; otherwise 201 with exactly one product appended holding exactly the body's fields plus the generated id and timestamps for keys the body lacks |
| ProductsController.CreatedProductIsShown | backend/src/controllers/products.js:14-28 | a product just created (not switched off) is then shown by `get` under its generated id |
| ProductsController.AdminUpdate | backend/src/controllers/products.js:31-38 | 400 first on a rejected body, then 404 for an unknown id, both with nothing changed; 200 iff both pass, with the product stored in place as the merge of its fields and the body, which is the reply body |
| ProductsController.AdminRemove | backend/src/controllers/products.js:41-46 | 204 with no body iff a product was removed, the rest keeping their order and multiplicity; 404 with nothing changed otherwise |
| AuthController.NewUser | backend/src/controllers/auth.js:20-26 | the stored user has exactly the email, a name defaulting to empty, role `user`, active true and the hash of the password |
| AuthController.Claims | backend/src/controllers/auth.js:28 | the token payload holds the role, and `sub` and `email` exactly when the user has an id and an email |
| AuthController.Register | backend/src/controllers/auth.js:9-30 | 400 on a rejected body; 409 with nothing stored iff the email is taken; 201 otherwise, with exactly the new user appended and a reply of exactly a token claiming role `user` and the user's id, email, role and name |
| AuthController.Admit | backend/src/controllers/auth.js:19-29 | storing a user with a free email appends exactly the new user and replies 201 with exactly `{token, user: {id, email, role, name}}` |
| AuthController.WelcomeReply | backend/src/controllers/auth.js:28-29 | the token claims role `user` and the reply's `user` holds exactly the generated id, the email, role `user` and the name or `''` |
| AuthController.CreatedUserView | backend/src/controllers/auth.js:20-29 | the stored user's picked view has exactly the four keys, with the generated id |
| AuthController.RegisterTwice | backend/src/controllers/auth.js:14-17 | registering the same email again gets 409 and stores nothing |
| AuthController.RegisterThenLogin | backend/src/controllers/auth.js:9-56 | a freshly registered user logs in with the registered password |
| AuthController.Login | backend/src/controllers/auth.js:33-56 | 200 iff the body is valid, the email is found, the account is not switched off and the password matches; 401 otherwise; nothing is stored; the profile has role and name defaults; the 200 body holds exactly a token whose claims carry the profile's role, and the profile |
| AuthController.LoginAs | backend/src/controllers/auth.js:38-55 | a found, active account with a matching password logs in with its profile |
| AuthController.Profile | backend/src/controllers/auth.js:55 | the reported profile takes the stored id and email, a role defaulting to `user` and a name defaulting to empty |
| AuthController.DemoMarkerBypassesHash | backend/src/controllers/auth.js:43-47 | an account with the demo marker opens with `admin` and nothing else, whatever the bcrypt comparison would answer |
| AuthController.OtherHashesAreCompared | backend/src/controllers/auth.js:43-49 | any other account opens iff bcrypt accepts the password against the stored hash, or against `''` when that is missing or falsy |
| AuthController.DemoAdminLogin | backend/src/controllers/auth.js:43-47 | on a freshly seeded store the demo admin logs in iff the password is exactly `admin`, and holds the admin role |
| AuthController.AdminLogin | backend/src/controllers/auth.js:43-47 | for a stored demo-marker hash login succeeds iff the password is `admin` |
| AuthController.Me | backend/src/controllers/auth.js:59-64 | 401 without a request user; the stored user's profile otherwise; the handler throws when that user is gone |
| AuthController.MeAfterAuth | backend/src/controllers/auth.js:59-64 | behind `auth`, `me` always answers 200 with the authenticated user's profile |

## Left out

- File persistence: snapshot loading, `_autoSave` and the JSON files. Saving is a no-op, and `init` starts from the collections it is given. A loaded snapshot could hold malformed records. `Schema.Valid` excludes those, and cart and order operations require it.
- Fire-and-forget saves and the `Promise.all` writes: they affect durability only, not the state.
- Id and timestamp generation (`Math.random`, `Date.now`) are the `Stamp` and `now` parameters. A generated cart id is assumed fresh (`CanCreateCart`).
- Floating point: prices, quantities and totals are exact reals; there is no rounding and no NaN.
- Orders.PriceOf: a stored price that is not a number counts as 0, where JavaScript's `Number` would coerce it (a numeric string to its value, anything unparsable to NaN). `Schema.Valid` keeps every price numeric, so this case does not arise in a valid store.
- Joi validation (email format, string lengths, unknown keys, integer quantities) is the `Checked` body. Only its numeric guarantees are stated, as preconditions.
- JWT signing and verification, and bcrypt hashing and comparison, are function parameters. A `sub` claim that is not a string is not modelled, because tokens are signed with the generated string id.
- Express routing, `app.js`, `server.js`, Swagger and the admin user listing are plumbing or projections over `Users.all`. So are `Users.all`, `Users.update` and `Orders.byId`, which no modelled endpoint calls.
- JavaScript object aliasing: `addItem` and `updateLine` mutate the fetched cart in place and then write it back with `update`. The model computes the new lines as values and writes them back the same way.
- AuthController.Register: signing throws when `JWT_SECRET` is unset (backend/src/utils/jwt.js:16-18). In `register` that happens after the user is created, so the user is stored and the handler throws. The model's `sign` is total and always yields 201. Login then throws too, with nothing stored.
- AuthController.Register: the handler awaits `bcrypt.hash` between the duplicate-email check and the insert. Two concurrent registrations of one email can therefore both be stored. The model runs each handler atomically, so it always answers the second one with 409.
- AuthController.Me: when the user has vanished it reports `Thrown`. The status Express then sends depends on its version and is not modelled.
- OrdersController.AdminUpdateStatus: a missing request body is the empty object. A body that is not an object is not modelled.

=== FILE: auth_controller.dfy ===
/** The account endpoints: `register`, `login` and `me`. Password hashing is
    the parameter `hash`, the bcrypt comparison is `checkHash(password,
    storedHash)`, and signing a token is `sign(claims)`. */
module AuthController {
  import opened Wrappers
  import opened Json
  import opened Store
  import opened Storage
  import opened Schema
  import opened Http
  import opened AuthMiddleware
  import Users

  /** The body `validateRegister` accepts. */
  datatype Registration = Registration(email: string, password: string, name: Option<string>)

  /** The body `validateLogin` accepts. */
  datatype Credentials = Credentials(email: string, password: string)

  /** The user record `register` stores: `name` defaults to `''`, the role is
      `'user'` and the account is active. */
  function NewUser(reg: Registration, passwordHash: string): (u: Fields)
    ensures u.Keys == {"email", "name", "role", "active", "passwordHash"}
    ensures u["email"] == Str(reg.email) && u["role"] == Str("user") && u["active"] == Bool(true)
    ensures u["name"] == (if reg.name.Some? then Str(reg.name.value) else Str(""))
    ensures u["passwordHash"] == Str(passwordHash)
  {
    var name := if reg.name.Some? then Some(Str(reg.name.value)) else None;
    map["email" := Str(reg.email), "name" := OrElse(name, Str("")), "role" := Str("user"),
        "active" := Bool(true), "passwordHash" := Str(passwordHash)]
  }

  /** The token claims `{ sub: user.id, email: user.email, role }`; a member
      whose value is undefined is left out, as `JSON.stringify` does. */
  function Claims(u: Record, role: Value): (r: Value)
    ensures r.Obj? && r.fields.Keys == {"role"} + (if "id" in u then {"sub"} else {}) + (if "email" in u then {"email"} else {})
    ensures r.fields["role"] == role
    ensures "id" in u ==> r.fields["sub"] == u["id"]
    ensures "email" in u ==> r.fields["email"] == u["email"]
  {
    Obj(PutDefined(PutDefined(map["role" := role], "sub", Get(u, "id")), "email", Get(u, "email")))
  }

  /** The profile `{ id, email, role: role || 'user', name: name || '' }`
      that `login` and `me` report. */
  function Profile(u: Record): (p: Fields)
    ensures p.Keys == {"role", "name"} + (Pick(u, ["id", "email"]).Keys)
    ensures p["role"] == OrElse(Get(u, "role"), Str("user"))
    ensures p["name"] == OrElse(Get(u, "name"), Str(""))
    ensures forall k :: k in ["id", "email"] && k in u ==> p[k] == u[k]
  {
    Pick(u, ["id", "email"])["role" := OrElse(Get(u, "role"), Str("user"))]["name" := OrElse(Get(u, "name"), Str(""))]
  }

  /** `register`: 400 on a rejected body, 409 when the email is taken (no
      user is created), otherwise 201 with a token and the new user. */
  function Register(db: Db, body: Checked<Registration>, hash: string -> string, sign: Value -> string, stamp: Stamp)
    : (s: Step)
    ensures Valid(db) ==> Valid(s.db)
    ensures PositiveQuantities(db) ==> PositiveQuantities(s.db)
    ensures body.Rejected? ==> s == Step(db, Error(400, body.message))
    ensures body.Accepted? && Users.ByEmail(db, body.value.email).Some? ==>
              s == Step(db, Error(409, "Email already registered"))
    ensures s.reply.Reply? && s.reply.status == 201 <==> body.Accepted? && Users.ByEmail(db, body.value.email).None?
    ensures s.reply.Reply? && s.reply.status == 201 ==>
              s.db == db.(users := db.users + [Generated(stamp) + NewUser(body.value, hash(body.value.password))])
    ensures s.reply.Reply? && s.reply.status == 201 ==> Welcomes(s.reply.body, s.db.users[|db.users|], body.value, sign, stamp)
  {
    match body
    case Rejected(message) => Step(db, Error(400, message))
    case Accepted(reg) =>
      if Users.ByEmail(db, reg.email).Some? then Step(db, Error(409, "Email already registered"))
      else Admit(db, reg, hash, sign, stamp)
  }

  /** The 201 body of `register` for the stored user `u`: exactly a token
      claiming role `user`, and the user's id, email, role `user` and name
      (`''` when none was given). */
  predicate Welcomes(body: Value, u: Record, reg: Registration, sign: Value -> string, stamp: Stamp) {
    && body.Obj? && body.fields.Keys == {"token", "user"}
    && body.fields["token"] == Str(sign(Claims(u, Str("user"))))
    && body.fields["user"].Obj?
    && var v := body.fields["user"].fields;
       && v.Keys == {"id", "email", "role", "name"}
       && v["id"] == Str(stamp.id) && v["email"] == Str(reg.email) && v["role"] == Str("user")
       && v["name"] == (if reg.name.Some? then Str(reg.name.value) else Str(""))
  }

  /** `register` once the email is known to be free: store the user, reply 201. */
  function Admit(db: Db, reg: Registration, hash: string -> string, sign: Value -> string, stamp: Stamp): (s: Step)
    ensures Valid(db) ==> Valid(s.db)
    ensures PositiveQuantities(db) ==> PositiveQuantities(s.db)
    ensures s.db == db.(users := db.users + [Generated(stamp) + NewUser(reg, hash(reg.password))])
    ensures s.reply.Reply? && s.reply.status == 201
    ensures Welcomes(s.reply.body, s.db.users[|db.users|], reg, sign, stamp)
  {
    var t := Users.Create(db, NewUser(reg, hash(reg.password)), stamp);
    var user := t.out;
    var token := sign(Claims(user, OrElse(Get(user, "role"), Null)));
    var reply := map["token" := Str(token), "user" := Obj(Pick(user, ["id", "email", "role", "name"]))];
    WelcomeReply(user, reg, hash(reg.password), sign, stamp);
    Step(t.db, Reply(201, Obj(reply)))
  }

  /** The reply `register` builds for the user it stored is a welcome. */
  lemma WelcomeReply(u: Record, reg: Registration, passwordHash: string, sign: Value -> string, stamp: Stamp)
    requires IsCreatedFrom(u, NewUser(reg, passwordHash), stamp)
    ensures var token := sign(Claims(u, OrElse(Get(u, "role"), Null)));
            Welcomes(Obj(map["token" := Str(token), "user" := Obj(Pick(u, ["id", "email", "role", "name"]))]),
                     u, reg, sign, stamp)
  {
    CreatedUserView(u, reg, passwordHash, stamp);
    var reply := map["token" := Str(sign(Claims(u, Str("user")))), "user" := Obj(Pick(u, ["id", "email", "role", "name"]))];
    assert reply.Keys == {"token", "user"};
  }

  /** The `user` member of `register`'s reply, and the role its token claims. */
  lemma CreatedUserView(u: Record, reg: Registration, passwordHash: string, stamp: Stamp)
    requires IsCreatedFrom(u, NewUser(reg, passwordHash), stamp)
    ensures OrElse(Get(u, "role"), Null) == Str("user")
    ensures var v := Pick(u, ["id", "email", "role", "name"]);
            && v.Keys == {"id", "email", "role", "name"}
            && v["id"] == Str(stamp.id) && v["email"] == Str(reg.email) && v["role"] == Str("user")
            && v["name"] == (if reg.name.Some? then Str(reg.name.value) else Str(""))
  {
    var n := NewUser(reg, passwordHash);
    assert "id" !in n && u["id"] == Str(stamp.id);
    assert u["email"] == n["email"] && u["role"] == n["role"] && u["name"] == n["name"];
    PickedView(u);
  }

  /** The profile keys picked from a record that has all four. */
  lemma PickedView(u: Record)
    requires "id" in u && "email" in u && "role" in u && "name" in u
    ensures Pick(u, ["id", "email", "role", "name"]).Keys == {"id", "email", "role", "name"}
  {
    var keys := ["id", "email", "role", "name"];
    var v := Pick(u, keys);
    forall k ensures k in v <==> k in {"id", "email", "role", "name"} {
      assert k in keys <==> k == "id" || k == "email" || k == "role" || k == "name";
    }
  }

  /** Whether `password` opens the account: the demo marker accepts exactly
      `admin`, any other stored hash (or `''` when there is none) goes to the
      bcrypt comparison. */
  predicate PasswordMatches(u: Record, password: string, checkHash: (string, Value) -> bool) {
    if StrictEquals(OrElse(Get(u, "passwordHash"), Null), Str(DemoHash)) then password == "admin"
    else checkHash(password, OrElse(Get(u, "passwordHash"), Str("")))
  }

  /** The demo marker never reaches the bcrypt comparison: whatever the
      comparison answers, such an account opens with `admin` and nothing else. */
  lemma DemoMarkerBypassesHash(u: Record, password: string, c1: (string, Value) -> bool, c2: (string, Value) -> bool)
    requires Get(u, "passwordHash") == Some(Str(DemoHash))
    ensures PasswordMatches(u, password, c1) <==> password == "admin"
    ensures PasswordMatches(u, password, c1) == PasswordMatches(u, password, c2)
  {
  }

  /** Any other account opens exactly when the comparison accepts the
      password against the stored hash, or against `''` when the stored hash
      is missing or falsy. */
  lemma OtherHashesAreCompared(u: Record, password: string, checkHash: (string, Value) -> bool)
    requires Get(u, "passwordHash") != Some(Str(DemoHash))
    ensures "passwordHash" in u && Truthy(u["passwordHash"]) ==>
              (PasswordMatches(u, password, checkHash) <==> checkHash(password, u["passwordHash"]))
    ensures !("passwordHash" in u && Truthy(u["passwordHash"])) ==>
              (PasswordMatches(u, password, checkHash) <==> checkHash(password, Str("")))
  {
  }

  /** `login`: 400 on a rejected body; 401 for an unknown email, a switched-off
      account or a wrong password; otherwise 200 with a token and the
      profile. Nothing is stored. */
  function Login(db: Db, body: Checked<Credentials>, checkHash: (string, Value) -> bool, sign: Value -> string)
    : (s: Step)
    ensures s.db == db
    ensures body.Rejected? ==> s.reply == Error(400, body.message)
    ensures s.reply.Reply? && s.reply.status == 200 <==>
              && body.Accepted?
              && Users.ByEmail(db, body.value.email).Some?
              && !IsFalse(Get(Users.ByEmail(db, body.value.email).value, "active"))
              && PasswordMatches(Users.ByEmail(db, body.value.email).value, body.value.password, checkHash)
    ensures body.Accepted? && !(s.reply.Reply? && s.reply.status == 200) ==> s.reply == Error(401, "Invalid credentials")
    ensures s.reply.Reply? && s.reply.status == 200 ==>
              var u := Users.ByEmail(db, body.value.email).value;
              && s.reply.body.Obj? && "user" in s.reply.body.fields
              && s.reply.body.fields["user"] == Obj(Profile(u))
    ensures s.reply.Reply? && s.reply.status == 200 ==>
              var u := Users.ByEmail(db, body.value.email).value;
              && s.reply.body.Obj? && s.reply.body.fields.Keys == {"token", "user"}
              && s.reply.body.fields["token"] == Str(sign(Claims(u, Profile(u)["role"])))
  {
    match body
    case Rejected(message) => Step(db, Error(400, message))
    case Accepted(cred) =>
      match Users.ByEmail(db, cred.email)
      case None => Step(db, Error(401, "Invalid credentials"))
      case Some(u) =>
        if IsFalse(Get(u, "active")) || !PasswordMatches(u, cred.password, checkHash) then
          Step(db, Error(401, "Invalid credentials"))
        else
          var token := sign(Claims(u, OrElse(Get(u, "role"), Str("user"))));
          Step(db, Ok(Obj(map["token" := Str(token), "user" := Obj(Profile(u))])))
  }

  /** `me`: 401 without a request user, otherwise 200 with the stored user's
      profile. The handler reads the profile off the lookup unchecked, so it
      throws when the user is no longer stored. */
  function Me(db: Db, user: Option<Identity>): (s: Step)
    ensures s.db == db
    ensures user.None? ==> s.reply == Error(401, "Unauthorized")
    ensures user.Some? && Users.ById(db, user.value.id).None? ==> s.reply == Thrown
    ensures user.Some? && Users.ById(db, user.value.id).Some? ==>
              s.reply == Ok(Obj(Profile(Users.ById(db, user.value.id).value)))
  {
    match user
    case None => Step(db, Error(401, "Unauthorized"))
    case Some(who) =>
      match Users.ById(db, who.id)
      case None => Step(db, Thrown)
      case Some(u) => Step(db, Ok(Obj(Profile(u))))
  }

  /** Behind `auth`, `me` always answers 200 with the authenticated user's
      profile: the lookup that `auth` just made succeeds again. */
  lemma MeAfterAuth(db: Db, header: Option<string>, verify: string -> Option<string>)
    requires Authenticate(db, header, verify).Pass?
    ensures var who := Authenticate(db, header, verify).user;
            var s := Me(db, Some(who));
            && s.reply.Reply? && s.reply.status == 200
            && s.reply.body == Obj(Profile(Users.ById(db, who.id).value))
            && Profile(Users.ById(db, who.id).value)["role"] == who.role
  {
  }

  /** Registering an email twice: the second attempt is refused with 409 and
      stores nothing. */
  lemma RegisterTwice(db: Db, reg: Registration, hash: string -> string, sign: Value -> string,
                      first: Stamp, second: Stamp)
    requires Users.ByEmail(db, reg.email).None?
    ensures var once := Register(db, Accepted(reg), hash, sign, first);
            Register(once.db, Accepted(reg), hash, sign, second) == Step(once.db, Error(409, "Email already registered"))
  {
    var once := Register(db, Accepted(reg), hash, sign, first);
    var u := once.db.users[|db.users|];
    assert Get(u, "email") == Some(Str(reg.email));
    assert once.db.users[|db.users|] == u;
  }

  /** Login succeeds for a found, active account whose password matches. */
  lemma LoginAs(db: Db, u: Record, cred: Credentials, checkHash: (string, Value) -> bool, sign: Value -> string)
    requires Users.ByEmail(db, cred.email) == Some(u)
    requires !IsFalse(Get(u, "active")) && PasswordMatches(u, cred.password, checkHash)
    ensures var l := Login(db, Accepted(cred), checkHash, sign);
            l.reply.Reply? && l.reply.status == 200 && l.reply.body.fields["user"] == Obj(Profile(u))
  {
  }

  lemma NewUserFields(stamp: Stamp, reg: Registration, passwordHash: string)
    ensures var u := Generated(stamp) + NewUser(reg, passwordHash);
            && Get(u, "email") == Some(Str(reg.email))
            && Get(u, "active") == Some(Bool(true))
            && Get(u, "passwordHash") == Some(Str(passwordHash))
  {
  }

  /** A freshly registered user logs in with the registered password, as
      long as the hash comparison recognises its own hashes and the hash is
      not the demo marker. */
  lemma RegisterThenLogin(db: Db, reg: Registration, hash: string -> string, checkHash: (string, Value) -> bool,
                          sign: Value -> string, stamp: Stamp)
    requires Users.ByEmail(db, reg.email).None?
    requires hash(reg.password) != DemoHash && checkHash(reg.password, Str(hash(reg.password)))
    ensures var s := Register(db, Accepted(reg), hash, sign, stamp);
            var l := Login(s.db, Accepted(Credentials(reg.email, reg.password)), checkHash, sign);
            l.reply.Reply? && l.reply.status == 200
  {
    var u := Generated(stamp) + NewUser(reg, hash(reg.password));
    NewUserFields(stamp, reg, hash(reg.password));
    Users.ByEmailAppend(db, u, reg.email);
    LoginAs(db.(users := db.users + [u]), u, Credentials(reg.email, reg.password), checkHash, sign);
  }

  /** On a freshly seeded store the demo admin logs in exactly with the
      password `admin`, and then holds the admin role. */
  lemma DemoAdminLogin(stamps: nat -> Stamp, password: string, checkHash: (string, Value) -> bool, sign: Value -> string)
    ensures var db := Init(Blank, stamps);
            var s := Login(db, Accepted(Credentials("admin@example.com", password)), checkHash, sign);
            && (s.reply.Reply? && s.reply.status == 200 <==> password == "admin")
            && (password == "admin" ==> s.reply.body.fields["user"].fields["role"] == Str("admin"))
  {
    var db := Init(Blank, stamps);
    SeededAdmin(Blank, stamps);
    AdminLogin(db, password, checkHash, sign);
  }

  /** The login of a store whose only user is the demo admin. */
  lemma AdminLogin(db: Db, password: string, checkHash: (string, Value) -> bool, sign: Value -> string)
    requires |db.users| == 1
    requires var admin := db.users[0];
             && Get(admin, "email") == Some(Str("admin@example.com"))
             && Get(admin, "role") == Some(Str("admin"))
             && Get(admin, "passwordHash") == Some(Str(DemoHash))
             && Get(admin, "active") == Some(Bool(true))
    ensures var s := Login(db, Accepted(Credentials("admin@example.com", password)), checkHash, sign);
            && (s.reply.Reply? && s.reply.status == 200 <==> password == "admin")
            && (password == "admin" ==> s.reply.body.fields["user"].fields["role"] == Str("admin"))
  {
    var admin := db.users[0];
    assert db.users == [] + [admin];
    Users.ByEmailAppend(db.(users := []), admin, "admin@example.com");
    assert Users.ByEmail(db, "admin@example.com") == Some(admin);
    assert PasswordMatches(admin, password, checkHash) <==> password == "admin";
  }
}

=== FILE: cart_controller.dfy ===
/** The cart endpoints, for the user `auth` attached to the request. Every
    endpoint first fetches the user's cart, creating an empty one when the
    user has none; `stamp` is the identity a created cart would get. */
module CartController {
  import opened Wrappers
  import opened Json
  import opened Store
  import opened Storage
  import opened CartLines
  import opened Schema
  import opened Http
  import opened AuthMiddleware
  import Products
  import Carts

  /** The body `validateCartAdd` accepts. */
  datatype AddRequest = AddRequest(productId: string, qty: real)

  /** The reply is `status` with the user's current cart as its body. */
  predicate ShowsCart(s: Step, userId: string, status: nat) {
    FindCart(s.db, userId).Some? && s.reply == Reply(status, Obj(FindCart(s.db, userId).value))
  }

  /** `get`: the user's cart, created empty for a user who has none. */
  function Show(db: Db, user: Identity, stamp: Stamp): (s: Step)
    requires Valid(db) && CanCreateCart(db, user.id, stamp)
    ensures Valid(s.db) && ShowsCart(s, user.id, 200)
    ensures UserLines(s.db, user.id) == UserLines(db, user.id)
    ensures FindCart(db, user.id).Some? ==> s.db == db
    ensures FindCart(db, user.id).None? ==>
              && s.db.products == db.products && s.db.orders == db.orders && s.db.users == db.users
              && s.db.carts == db.carts + [FindCart(s.db, user.id).value]
              && UserLines(s.db, user.id) == []
              && Carts.NewCart(FindCart(s.db, user.id).value, user.id, stamp)
    ensures forall other :: other != user.id ==> FindCart(s.db, other) == FindCart(db, other)
  {
    var got := Carts.GetOrCreateByUser(db, user.id, stamp);
    Step(got.db, Ok(Obj(got.out)))
  }

  /** The product may be put in a cart: it exists and is not switched off. */
  predicate Orderable(db: Db, productId: string) {
    Products.ById(db, productId).Some? && !IsFalse(Get(Products.ById(db, productId).value, "active"))
  }

  /** `add`: 400 on a rejected body before anything is looked up, 404 for a
      missing or switched-off product, otherwise 201 with the cart after
      `addItem`. Validation guarantees a quantity of at least 1. */
  function Add(db: Db, user: Identity, body: Checked<AddRequest>, stamp: Stamp, now: string): (s: Step)
    requires Valid(db) && CanCreateCart(db, user.id, stamp)
    requires body.Accepted? ==> body.value.qty >= 1.0
    ensures Valid(s.db)
    ensures PositiveQuantities(db) ==> PositiveQuantities(s.db)
    ensures body.Rejected? ==> s == Step(db, Error(400, body.message))
    ensures body.Accepted? && !Orderable(db, body.value.productId) ==> s == Step(db, Error(404, "Product not found"))
    ensures s.reply.Reply? && s.reply.status == 201 <==> body.Accepted? && Orderable(db, body.value.productId)
    ensures s.reply.Reply? && s.reply.status == 201 ==>
              && s.db.products == db.products && s.db.orders == db.orders && s.db.users == db.users
              && ShowsCart(s, user.id, 201)
              && UserLines(s.db, user.id) == AddQty(UserLines(db, user.id), body.value.productId, body.value.qty)
    ensures forall other :: other != user.id ==> FindCart(s.db, other) == FindCart(db, other)
    ensures s.reply.Reply? && s.reply.status == 201 ==>
              var mid := Carts.GetOrCreateByUser(db, user.id, stamp).db;
              && Carts.Fetched(db, mid, user.id, stamp)
              && Saved(mid, s.db.carts, FindCart(s.db, user.id).value, user.id,
                       EncodeLines(AddQty(UserLines(db, user.id), body.value.productId, body.value.qty)), now)
  {
    match body
    case Rejected(message) => Step(db, Error(400, message))
    case Accepted(req) =>
      if !Orderable(db, req.productId) then Step(db, Error(404, "Product not found"))
      else
        var t := Carts.AddItem(db, user.id, req.productId, Some(req.qty), stamp, now);
        Step(t.db, Reply(201, Obj(t.out.value)))
  }

  /** `updateLine`: 400 on a rejected body, 404 when the cart has no line for
      `lineId`, otherwise the line takes the new quantity. The cart fetch
      comes before the line lookup, so a 404 may still have created an empty
      cart. */
  function UpdateLine(db: Db, user: Identity, body: Checked<real>, lineId: string, stamp: Stamp, now: string)
    : (s: Step)
    requires Valid(db) && CanCreateCart(db, user.id, stamp)
    requires body.Accepted? ==> body.value >= 1.0
    ensures Valid(s.db)
    ensures PositiveQuantities(db) ==> PositiveQuantities(s.db)
    ensures s.db.products == db.products && s.db.orders == db.orders && s.db.users == db.users
    ensures body.Rejected? ==> s == Step(db, Error(400, body.message))
    ensures body.Accepted? && Find(UserLines(db, user.id), lineId).None? ==>
              s.reply == Error(404, "Line not found") && UserLines(s.db, user.id) == UserLines(db, user.id)
    ensures s.reply.Reply? && s.reply.status == 200 <==>
              body.Accepted? && Find(UserLines(db, user.id), lineId).Some?
    ensures s.reply.Reply? && s.reply.status == 200 ==>
              && ShowsCart(s, user.id, 200)
              && UserLines(s.db, user.id) == SetQty(UserLines(db, user.id), lineId, body.value)
    ensures forall other :: other != user.id ==> FindCart(s.db, other) == FindCart(db, other)
    ensures body.Accepted? && Find(UserLines(db, user.id), lineId).None? ==>
              Carts.Fetched(db, s.db, user.id, stamp)
    ensures s.reply.Reply? && s.reply.status == 200 ==>
              var mid := Carts.GetOrCreateByUser(db, user.id, stamp).db;
              && Carts.Fetched(db, mid, user.id, stamp)
              && Saved(mid, s.db.carts, FindCart(s.db, user.id).value, user.id,
                       EncodeLines(SetQty(UserLines(db, user.id), lineId, body.value)), now)
  {
    match body
    case Rejected(message) => Step(db, Error(400, message))
    case Accepted(qty) => SetLine(db, user, qty, lineId, stamp, now)
  }

  /** `updateLine` once the body passed validation. */
  function SetLine(db: Db, user: Identity, qty: real, lineId: string, stamp: Stamp, now: string): (s: Step)
    requires Valid(db) && CanCreateCart(db, user.id, stamp) && qty >= 1.0
    ensures Valid(s.db)
    ensures PositiveQuantities(db) ==> PositiveQuantities(s.db)
    ensures s.db.products == db.products && s.db.orders == db.orders && s.db.users == db.users
    ensures Find(UserLines(db, user.id), lineId).None? ==>
              s.reply == Error(404, "Line not found") && UserLines(s.db, user.id) == UserLines(db, user.id)
    ensures Find(UserLines(db, user.id), lineId).Some? ==>
              && ShowsCart(s, user.id, 200)
              && UserLines(s.db, user.id) == SetQty(UserLines(db, user.id), lineId, qty)
    ensures forall other :: other != user.id ==> FindCart(s.db, other) == FindCart(db, other)
    ensures Find(UserLines(db, user.id), lineId).None? ==> Carts.Fetched(db, s.db, user.id, stamp)
    ensures Find(UserLines(db, user.id), lineId).Some? ==>
              var mid := Carts.GetOrCreateByUser(db, user.id, stamp).db;
              && Carts.Fetched(db, mid, user.id, stamp)
              && Saved(mid, s.db.carts, FindCart(s.db, user.id).value, user.id,
                       EncodeLines(SetQty(UserLines(db, user.id), lineId, qty)), now)
  {
    var got := Carts.GetOrCreateByUser(db, user.id, stamp);
    FoundCartOk(got.db, user.id);
    var lines := Lines(got.out);
    if Find(lines, lineId).None? then Step(got.db, Error(404, "Line not found"))
    else
      var t := SaveItems(got.db, user.id, SetQty(lines, lineId, qty), now);
      Step(t.db, Ok(Obj(t.out.value)))
  }

  /** `removeLine`: always 200 with the cart after `removeItem`, also when no
      line matches. */
  function RemoveLine(db: Db, user: Identity, lineId: string, stamp: Stamp, now: string): (s: Step)
    requires Valid(db) && CanCreateCart(db, user.id, stamp)
    ensures Valid(s.db)
    ensures PositiveQuantities(db) ==> PositiveQuantities(s.db)
    ensures s.db.products == db.products && s.db.orders == db.orders && s.db.users == db.users
    ensures ShowsCart(s, user.id, 200)
    ensures UserLines(s.db, user.id) == Drop(UserLines(db, user.id), lineId)
    ensures Find(UserLines(db, user.id), lineId).None? ==> UserLines(s.db, user.id) == UserLines(db, user.id)
    ensures forall other :: other != user.id ==> FindCart(s.db, other) == FindCart(db, other)
    ensures var mid := Carts.GetOrCreateByUser(db, user.id, stamp).db;
            Carts.Fetched(db, mid, user.id, stamp) && Saved(mid, s.db.carts, FindCart(s.db, user.id).value, user.id, EncodeLines(Drop(UserLines(db, user.id), lineId)), now)
  {
    var t := Carts.RemoveItem(db, user.id, lineId, stamp, now);
    assert Find(UserLines(db, user.id), lineId).None? ==> Drop(UserLines(db, user.id), lineId) == UserLines(db, user.id) by {
      if Find(UserLines(db, user.id), lineId).None? {
        DropAbsent(UserLines(db, user.id), lineId);
      }
    }
    Step(t.db, Ok(Obj(t.out.value)))
  }

  /** `clear`: always 200 with the emptied cart. */
  function Clear(db: Db, user: Identity, stamp: Stamp, now: string): (s: Step)
    requires Valid(db) && CanCreateCart(db, user.id, stamp)
    ensures Valid(s.db)
    ensures PositiveQuantities(db) ==> PositiveQuantities(s.db)
    ensures s.db.products == db.products && s.db.orders == db.orders && s.db.users == db.users
    ensures ShowsCart(s, user.id, 200)
    ensures UserLines(s.db, user.id) == []
    ensures forall other :: other != user.id ==> FindCart(s.db, other) == FindCart(db, other)
    ensures var mid := Carts.GetOrCreateByUser(db, user.id, stamp).db;
            Carts.Fetched(db, mid, user.id, stamp) && Saved(mid, s.db.carts, FindCart(s.db, user.id).value, user.id, Arr([]), now)
  {
    var t := Carts.Clear(db, user.id, stamp, now);
    Step(t.db, Ok(Obj(t.out.value)))
  }

  /** `updateLine` sets the quantity of the product to the new value and
      leaves every other product's quantity as it was. */
  lemma UpdateLineSetsQuantity(db: Db, user: Identity, qty: real, lineId: string, stamp: Stamp, now: string, pid: string)
    requires Valid(db) && CanCreateCart(db, user.id, stamp) && qty >= 1.0
    requires Find(UserLines(db, user.id), lineId).Some?
    ensures var s := UpdateLine(db, user, Accepted(qty), lineId, stamp, now);
            QtyOf(UserLines(s.db, user.id), pid) == if pid == lineId then qty else QtyOf(UserLines(db, user.id), pid)
  {
    UserLinesNoDup(db, user.id);
    SetQtyBag(UserLines(db, user.id), lineId, qty, pid);
  }

  /** `add` on an orderable product raises its quantity by exactly the
      requested amount and leaves every other product's quantity as it was. */
  lemma AddRaisesQuantity(db: Db, user: Identity, req: AddRequest, stamp: Stamp, now: string, pid: string)
    requires Valid(db) && CanCreateCart(db, user.id, stamp) && req.qty >= 1.0
    requires Orderable(db, req.productId)
    ensures var s := Add(db, user, Accepted(req), stamp, now);
            QtyOf(UserLines(s.db, user.id), pid)
              == QtyOf(UserLines(db, user.id), pid) + (if pid == req.productId then req.qty else 0.0)
  {
    AddQtyBag(UserLines(db, user.id), req.productId, req.qty, pid);
  }
}

=== FILE: cartlines.dfy ===
/** Cart lines: the `items` array of a cart record, `[{productId, qty}, ...]`,
    its JSON encoding, and the line-level edits the cart operations make. */
module CartLines {
  import opened Wrappers
  import opened Json

  datatype Line = Line(productId: string, qty: real)

  function EncodeLine(l: Line): Value {
    Obj(map["productId" := Str(l.productId), "qty" := Num(l.qty)])
  }

  /** A line object carries exactly a string `productId` and a numeric `qty`. */
  function DecodeLine(v: Value): Option<Line> {
    if v.Obj? && v.fields.Keys == {"productId", "qty"} && v.fields["productId"].Str? && v.fields["qty"].Num?
    then Some(Line(v.fields["productId"].s, v.fields["qty"].n))
    else None
  }

  function EncodeEach(ls: seq<Line>): seq<Value> {
    if ls == [] then [] else [EncodeLine(ls[0])] + EncodeEach(ls[1..])
  }

  function DecodeEach(vs: seq<Value>): Option<seq<Line>> {
    if vs == [] then Some([])
    else
      match DecodeLine(vs[0])
      case None => None
      case Some(l) =>
        match DecodeEach(vs[1..])
        case None => None
        case Some(ls) => Some([l] + ls)
  }

  function EncodeLines(ls: seq<Line>): Value {
    Arr(EncodeEach(ls))
  }

  function DecodeLines(v: Value): Option<seq<Line>> {
    if v.Arr? then DecodeEach(v.elems) else None
  }

  /** Decoding an encoded line list gives the list back. */
  lemma {:induction false} DecodeEncode(ls: seq<Line>)
    ensures DecodeLines(EncodeLines(ls)) == Some(ls)
  {
    if ls != [] {
      var l := ls[0];
      assert EncodeLine(l).fields.Keys == {"productId", "qty"};
      assert DecodeLine(EncodeLine(l)) == Some(l);
      DecodeEncode(ls[1..]);
      assert EncodeEach(ls)[1..] == EncodeEach(ls[1..]);
      assert [l] + ls[1..] == ls;
    }
  }

  /** Every value that decodes is the encoding of what it decodes to. */
  lemma {:induction false} EncodeDecode(v: Value)
    requires DecodeLines(v).Some?
    ensures EncodeLines(DecodeLines(v).value) == v
  {
    EncodeDecodeEach(v.elems);
  }

  lemma {:induction false} EncodeDecodeEach(vs: seq<Value>)
    requires DecodeEach(vs).Some?
    ensures EncodeEach(DecodeEach(vs).value) == vs
  {
    if vs != [] {
      var v := vs[0];
      var l := DecodeLine(v).value;
      assert EncodeLine(l).fields == v.fields;
      EncodeDecodeEach(vs[1..]);
      var ls := DecodeEach(vs).value;
      assert ls[0] == l && ls[1..] == DecodeEach(vs[1..]).value;
      assert vs == [v] + vs[1..];
    }
  }

  /** `items.find((i) => i.productId === pid)`, as an index. */
  function Find(ls: seq<Line>, pid: string): (r: Option<nat>)
    ensures r.Some? ==> r.value < |ls| && ls[r.value].productId == pid
    ensures r.Some? ==> forall j :: 0 <= j < r.value ==> ls[j].productId != pid
    ensures r.None? <==> forall j :: 0 <= j < |ls| ==> ls[j].productId != pid
  {
    if ls == [] then None
    else if ls[0].productId == pid then Some(0)
    else
      match Find(ls[1..], pid)
      case None => None
      case Some(i) => Some(i + 1)
  }

  /** No two lines share a productId. */
  predicate NoDup(ls: seq<Line>) {
    forall i, j :: 0 <= i < j < |ls| ==> ls[i].productId != ls[j].productId
  }

  /** The cart invariant: one line per product, each with a quantity of at least 1. */
  predicate LinesOk(ls: seq<Line>) {
    NoDup(ls) && Positive(ls)
  }

  /** Every line holds at least one unit. */
  predicate Positive(ls: seq<Line>) {
    forall j :: 0 <= j < |ls| ==> ls[j].qty >= 1.0
  }

  /** The quantity of `pid` held over all lines: the cart seen as a bag of products. */
  function QtyOf(ls: seq<Line>, pid: string): real {
    if ls == [] then 0.0
    else (if ls[0].productId == pid then ls[0].qty else 0.0) + QtyOf(ls[1..], pid)
  }

  /** The line edit of `addItem`: add `qty` to the line for `pid`, or append
      a new line `{productId: pid, qty}`. */
  function AddQty(ls: seq<Line>, pid: string, qty: real): (r: seq<Line>)
    ensures Find(ls, pid).Some? ==>
              var k := Find(ls, pid).value;
              r == ls[k := Line(pid, ls[k].qty + qty)]
    ensures Find(ls, pid).None? ==> r == ls + [Line(pid, qty)]
    ensures NoDup(ls) ==> NoDup(r)
    ensures LinesOk(ls) && qty >= 1.0 ==> LinesOk(r)
  {
    match Find(ls, pid)
    case Some(k) => ls[k := Line(pid, ls[k].qty + qty)]
    case None => ls + [Line(pid, qty)]
  }

  /** The line edit of `updateLine`: the line for `pid` takes quantity `qty`. */
  function SetQty(ls: seq<Line>, pid: string, qty: real): (r: seq<Line>)
    requires Find(ls, pid).Some?
    ensures |r| == |ls|
    ensures forall j :: 0 <= j < |ls| && j != Find(ls, pid).value ==> r[j] == ls[j]
    ensures r[Find(ls, pid).value] == Line(pid, qty)
    ensures NoDup(ls) ==> NoDup(r)
    ensures LinesOk(ls) && qty >= 1.0 ==> LinesOk(r)
  {
    var k := Find(ls, pid).value;
    ls[k := Line(pid, qty)]
  }

  /** The line edit of `removeItem`: `items.filter((i) => i.productId !== pid)`. */
  function Drop(ls: seq<Line>, pid: string): (r: seq<Line>)
    ensures |r| <= |ls|
    ensures forall l :: l in r <==> l in ls && l.productId != pid
  {
    if ls == [] then []
    else (if ls[0].productId == pid then [] else [ls[0]]) + Drop(ls[1..], pid)
  }

  /** Removing lines keeps the cart invariant. */
  lemma DropKeepsLinesOk(ls: seq<Line>, pid: string)
    ensures NoDup(ls) ==> NoDup(Drop(ls, pid))
    ensures LinesOk(ls) ==> LinesOk(Drop(ls, pid))
  {
    if NoDup(ls) {
      DropKeepsNoDup(ls, pid);
    }
    if LinesOk(ls) {
      var r := Drop(ls, pid);
      forall j | 0 <= j < |r|
        ensures r[j].qty >= 1.0
      {
        assert r[j] in ls;
      }
    }
  }

  lemma {:induction false} DropKeepsNoDup(ls: seq<Line>, pid: string)
    requires NoDup(ls)
    ensures NoDup(Drop(ls, pid))
  {
    if ls != [] {
      DropKeepsNoDup(ls[1..], pid);
      var rest := Drop(ls[1..], pid);
      if ls[0].productId != pid {
        assert Drop(ls, pid) == [ls[0]] + rest;
        forall j | 0 <= j < |rest|
          ensures rest[j].productId != ls[0].productId
        {
          assert rest[j] in ls[1..];
        }
      } else {
        assert Drop(ls, pid) == rest;
      }
    }
  }

  /** Removing a product the cart does not hold changes nothing. */
  lemma {:induction false} DropAbsent(ls: seq<Line>, pid: string)
    requires Find(ls, pid).None?
    ensures Drop(ls, pid) == ls
  {
    if ls != [] {
      DropAbsent(ls[1..], pid);
      assert [ls[0]] + ls[1..] == ls;
    }
  }

  /** Removal keeps the relative order of the remaining lines. */
  lemma {:induction false} DropConcat(a: seq<Line>, b: seq<Line>, pid: string)
    ensures Drop(a + b, pid) == Drop(a, pid) + Drop(b, pid)
  {
    if a == [] {
      assert a + b == b;
    } else {
      assert (a + b)[1..] == a[1..] + b;
      DropConcat(a[1..], b, pid);
    }
  }

  lemma {:induction false} QtyOfAppend(ls: seq<Line>, l: Line, pid: string)
    ensures QtyOf(ls + [l], pid) == QtyOf(ls, pid) + (if l.productId == pid then l.qty else 0.0)
  {
    if ls != [] {
      assert (ls + [l])[1..] == ls[1..] + [l];
      QtyOfAppend(ls[1..], l, pid);
    }
  }

  lemma {:induction false} QtyOfReplace(ls: seq<Line>, k: nat, l: Line, pid: string)
    requires k < |ls|
    ensures QtyOf(ls[k := l], pid) ==
              QtyOf(ls, pid) - (if ls[k].productId == pid then ls[k].qty else 0.0)
                             + (if l.productId == pid then l.qty else 0.0)
  {
    if k > 0 {
      assert ls[k := l][1..] == ls[1..][k - 1 := l];
      QtyOfReplace(ls[1..], k - 1, l, pid);
    }
  }

  /** A product that no line names is held in quantity 0. */
  lemma {:induction false} QtyOfAbsent(ls: seq<Line>, pid: string)
    requires forall j :: 0 <= j < |ls| ==> ls[j].productId != pid
    ensures QtyOf(ls, pid) == 0.0
  {
    if ls != [] {
      QtyOfAbsent(ls[1..], pid);
    }
  }

  /** Without duplicates, the quantity of a product is that of its one line. */
  lemma QtyOfFound(ls: seq<Line>, pid: string)
    requires NoDup(ls) && Find(ls, pid).Some?
    ensures QtyOf(ls, pid) == ls[Find(ls, pid).value].qty
  {
    var k := Find(ls, pid).value;
    var l := Line("", 0.0);
    if pid == "" {
      l := Line("x", 0.0);
    }
    QtyOfReplace(ls, k, l, pid);
    var s := ls[k := l];
    assert forall j :: 0 <= j < |s| ==> s[j].productId != pid;
    QtyOfAbsent(s, pid);
  }

  /** `addItem` adds `qty` units of `pid` to the cart and leaves every other
      product's quantity alone. */
  lemma AddQtyBag(ls: seq<Line>, pid: string, qty: real, other: string)
    ensures QtyOf(AddQty(ls, pid, qty), other) == QtyOf(ls, other) + (if other == pid then qty else 0.0)
  {
    if Find(ls, pid).Some? {
      var k := Find(ls, pid).value;
      assert AddQty(ls, pid, qty) == ls[k := Line(pid, ls[k].qty + qty)];
      QtyOfReplace(ls, k, Line(pid, ls[k].qty + qty), other);
    } else {
      assert AddQty(ls, pid, qty) == ls + [Line(pid, qty)];
      QtyOfAppend(ls, Line(pid, qty), other);
    }
  }

  /** `updateLine` replaces the quantity of `pid` rather than adding to it,
      and leaves every other product's quantity alone. */
  lemma SetQtyBag(ls: seq<Line>, pid: string, qty: real, other: string)
    requires NoDup(ls) && Find(ls, pid).Some?
    ensures QtyOf(SetQty(ls, pid, qty), other) == if other == pid then qty else QtyOf(ls, other)
  {
    var k := Find(ls, pid).value;
    QtyOfReplace(ls, k, Line(pid, qty), other);
    if other == pid {
      QtyOfFound(ls, pid);
    }
  }

  /** `removeItem` takes every unit of `pid` out and leaves every other
      product's quantity alone. */
  lemma {:induction false} DropBag(ls: seq<Line>, pid: string, other: string)
    ensures QtyOf(Drop(ls, pid), other) == if other == pid then 0.0 else QtyOf(ls, other)
  {
    if ls != [] {
      DropBag(ls[1..], pid, other);
      var rest := Drop(ls[1..], pid);
      if ls[0].productId != pid {
        assert Drop(ls, pid) == [ls[0]] + rest;
        assert ([ls[0]] + rest)[1..] == rest;
      } else {
        assert Drop(ls, pid) == rest;
      }
    }
  }

  /** The order total Σ qty × price, with `price` resolving a productId. */
  function Total(ls: seq<Line>, price: string -> real): real {
    if ls == [] then 0.0 else Cost(ls[0], price) + Total(ls[1..], price)
  }

  /** What one line costs: `price * qty`. */
  function Cost(l: Line, price: string -> real): real {
    price(l.productId) * l.qty
  }

  /** `items.reduce((sum, it) => sum + price(it.productId) * it.qty, acc)`. */
  function Reduce(acc: real, ls: seq<Line>, price: string -> real): real
    decreases |ls|
  {
    if ls == [] then acc else Reduce(acc + Cost(ls[0], price), ls[1..], price)
  }

  /** The left fold the service runs computes the line-by-line sum. */
  lemma {:induction false} ReduceIsTotal(acc: real, ls: seq<Line>, price: string -> real)
    ensures Reduce(acc, ls, price) == acc + Total(ls, price)
    decreases |ls|
  {
    if ls != [] {
      ReduceIsTotal(acc + Cost(ls[0], price), ls[1..], price);
    }
  }

  /** The total of a concatenation is the sum of the totals. */
  lemma {:induction false} TotalConcat(a: seq<Line>, b: seq<Line>, price: string -> real)
    ensures Total(a + b, price) == Total(a, price) + Total(b, price)
  {
    if a == [] {
      assert a + b == b;
    } else {
      assert (a + b)[1..] == a[1..] + b;
      TotalConcat(a[1..], b, price);
    }
  }

  /** With non-negative prices and quantities the total is non-negative. */
  lemma {:induction false} TotalNonNegative(ls: seq<Line>, price: string -> real)
    requires forall j :: 0 <= j < |ls| ==> ls[j].qty >= 0.0 && price(ls[j].productId) >= 0.0
    ensures Total(ls, price) >= 0.0
  {
    if ls != [] {
      TotalNonNegative(ls[1..], price);
    }
  }

  /** Lines for a product priced at 0 add nothing to the total. */
  lemma {:induction false} TotalIgnoresFree(ls: seq<Line>, price: string -> real, pid: string)
    requires price(pid) == 0.0
    ensures Total(ls, price) == Total(Drop(ls, pid), price)
  {
    if ls != [] {
      var head := ls[0];
      var tail := Drop(ls[1..], pid);
      TotalIgnoresFree(ls[1..], price, pid);
      if head.productId == pid {
        assert Drop(ls, pid) == tail;
        assert Cost(head, price) == 0.0;
      } else {
        assert Drop(ls, pid) == [head] + tail;
        assert ([head] + tail)[1..] == tail;
      }
    }
  }
}

=== FILE: carts.dfy ===
/** The cart repository: one lazily created cart per user, and the line
    edits `addItem`, `removeItem` and `clear`, each written back through
    `carts().update(cart.id, { items })`. */
module Carts {
  import opened Wrappers
  import opened Json
  import opened Store
  import opened Storage
  import opened CartLines
  import opened Schema

  /** The record `create({ userId, items: [] })` adds. */
  function EmptyCart(userId: string): Fields {
    map["userId" := Str(userId), "items" := Arr([])]
  }

  /** A cart just created for the user: `{id, createdAt, updatedAt, userId, items: []}`
      with the generated members from `stamp`. */
  predicate NewCart(c: Record, userId: string, stamp: Stamp) {
    && c.Keys == {"id", "createdAt", "updatedAt", "userId", "items"}
    && c["id"] == Str(stamp.id) && c["createdAt"] == Str(stamp.createdAt) && c["updatedAt"] == Str(stamp.updatedAt)
    && c["userId"] == Str(userId) && c["items"] == Arr([])
  }

  /** `mid` is the store after `getOrCreateByUser`: `db` itself when the user
      has a cart, otherwise `db` with a new empty cart appended. */
  predicate Fetched(db: Db, mid: Db, userId: string, stamp: Stamp) {
    && FindCart(mid, userId).Some?
    && (FindCart(db, userId).Some? ==> mid == db)
    && (FindCart(db, userId).None? ==>
          && mid == db.(carts := db.carts + [FindCart(mid, userId).value])
          && NewCart(FindCart(mid, userId).value, userId, stamp))
  }

  lemma NewCartFacts(db: Db, userId: string, stamp: Stamp)
    requires Valid(db) && FindCart(db, userId).None?
    requires forall j :: 0 <= j < |db.carts| ==> !HasId(db.carts[j], stamp.id)
    ensures var w := Create(db.carts, EmptyCart(userId), stamp);
            var db' := db.(carts := w.records);
            && Valid(db')
            && (PositiveQuantities(db) ==> PositiveQuantities(db'))
            && FindCart(db', userId) == Some(w.record)
            && UserLines(db', userId) == []
            && forall other :: other != userId ==> FindCart(db', other) == FindCart(db, other)
  {
    var w := Create(db.carts, EmptyCart(userId), stamp);
    var r := w.record;
    var db' := db.(carts := w.records);
    assert DecodeLines(r["items"]) == Some([]);
    assert CartOk(r);
    forall j | 0 <= j < |db.carts|
      ensures Get(db.carts[j], "id") != Get(r, "id") && Get(db.carts[j], "userId") != Get(r, "userId")
    {
      MatchesByUser(db.carts[j], userId);
    }
    assert CartsOk(db'.carts);
    MatchesByUser(r, userId);
    FirstIndexAppend(db.carts, r, Matching(ByUser(userId)));
    forall other | other != userId
      ensures FindCart(db', other) == FindCart(db, other)
    {
      MatchesByUser(r, other);
      FirstIndexAppend(db.carts, r, Matching(ByUser(other)));
      match FirstIndex(db.carts, Matching(ByUser(other)))
      case None =>
      case Some(j) => assert db'.carts[j] == db.carts[j];
    }
    if PositiveQuantities(db) {
      forall j | 0 <= j < |db'.carts| && CartOk(db'.carts[j])
        ensures Positive(Lines(db'.carts[j]))
      {
        if j < |db.carts| {
          assert db'.carts[j] == db.carts[j];
        }
      }
    }
  }

  /** `getOrCreateByUser(userId)`: the user's cart, created empty when the
      user has none. */
  function GetOrCreateByUser(db: Db, userId: string, stamp: Stamp): (t: Tx<Record>)
    requires Valid(db) && CanCreateCart(db, userId, stamp)
    ensures Valid(t.db)
    ensures PositiveQuantities(db) ==> PositiveQuantities(t.db)
    ensures FindCart(t.db, userId) == Some(t.out)
    ensures FindCart(db, userId).Some? ==> t == Tx(db, FindCart(db, userId).value)
    ensures FindCart(db, userId).None? ==>
              && t.db == db.(carts := db.carts + [t.out])
              && Get(t.out, "id") == Some(Str(stamp.id))
              && Get(t.out, "userId") == Some(Str(userId))
              && Get(t.out, "items") == Some(Arr([]))
              && Get(t.out, "createdAt") == Some(Str(stamp.createdAt))
              && Get(t.out, "updatedAt") == Some(Str(stamp.updatedAt))
              && t.out.Keys == {"id", "createdAt", "updatedAt", "userId", "items"}
    ensures UserLines(t.db, userId) == UserLines(db, userId)
    ensures forall other :: other != userId ==> FindCart(t.db, other) == FindCart(db, other)
    ensures Fetched(db, t.db, userId, stamp)
  {
    match FindCart(db, userId)
    case Some(cart) => Tx(db, cart)
    case None =>
      var w := Create(db.carts, EmptyCart(userId), stamp);
      NewCartFacts(db, userId, stamp);
      Tx(db.(carts := w.records), w.record)
  }

  /** A second `getOrCreateByUser` returns the same cart and creates nothing. */
  lemma GetOrCreateIdempotent(db: Db, userId: string, first: Stamp, second: Stamp)
    requires Valid(db) && CanCreateCart(db, userId, first)
    ensures var once := GetOrCreateByUser(db, userId, first);
            CanCreateCart(once.db, userId, second)
            && GetOrCreateByUser(once.db, userId, second) == once
  {
  }

  /** `addItem(userId, productId, qty = 1)`: adds `qty` to the line for the
      product, or appends a new line. */
  function AddItem(db: Db, userId: string, productId: string, qty: Option<real>, stamp: Stamp, now: string)
    : (t: Tx<Option<Record>>)
    requires Valid(db) && CanCreateCart(db, userId, stamp)
    ensures Valid(t.db)
    ensures PositiveQuantities(db) && qty.GetOr(1.0) >= 1.0 ==> PositiveQuantities(t.db)
    ensures t.db == db.(carts := t.db.carts)
    ensures UserLines(t.db, userId) == AddQty(UserLines(db, userId), productId, qty.GetOr(1.0))
    ensures t.out.Some? && FindCart(t.db, userId) == t.out
    ensures FindCart(db, userId).Some? ==> Get(t.out.value, "id") == Get(FindCart(db, userId).value, "id")
    ensures forall other :: other != userId ==> FindCart(t.db, other) == FindCart(db, other)
    ensures var mid := GetOrCreateByUser(db, userId, stamp).db;
            Fetched(db, mid, userId, stamp) && Saved(mid, t.db.carts, t.out.value, userId, EncodeLines(AddQty(UserLines(db, userId), productId, qty.GetOr(1.0))), now)
  {
    var got := GetOrCreateByUser(db, userId, stamp);
    FoundCartOk(got.db, userId);
    var lines := Lines(got.out);
    SaveItems(got.db, userId, AddQty(lines, productId, qty.GetOr(1.0)), now)
  }

  /** `removeItem(userId, productId)`: drops the product's lines; the cart
      record stays. */
  function RemoveItem(db: Db, userId: string, productId: string, stamp: Stamp, now: string)
    : (t: Tx<Option<Record>>)
    requires Valid(db) && CanCreateCart(db, userId, stamp)
    ensures Valid(t.db)
    ensures PositiveQuantities(db) ==> PositiveQuantities(t.db)
    ensures t.db == db.(carts := t.db.carts)
    ensures UserLines(t.db, userId) == Drop(UserLines(db, userId), productId)
    ensures t.out.Some? && FindCart(t.db, userId) == t.out
    ensures FindCart(db, userId).Some? ==> Get(t.out.value, "id") == Get(FindCart(db, userId).value, "id")
    ensures forall other :: other != userId ==> FindCart(t.db, other) == FindCart(db, other)
    ensures var mid := GetOrCreateByUser(db, userId, stamp).db;
            Fetched(db, mid, userId, stamp) && Saved(mid, t.db.carts, t.out.value, userId, EncodeLines(Drop(UserLines(db, userId), productId)), now)
  {
    var got := GetOrCreateByUser(db, userId, stamp);
    FoundCartOk(got.db, userId);
    var lines := Lines(got.out);
    DropKeepsLinesOk(lines, productId);
    SaveItems(got.db, userId, Drop(lines, productId), now)
  }

  /** `clear(userId)`: empties the user's cart and keeps the cart record. */
  function Clear(db: Db, userId: string, stamp: Stamp, now: string): (t: Tx<Option<Record>>)
    requires Valid(db) && CanCreateCart(db, userId, stamp)
    ensures Valid(t.db)
    ensures PositiveQuantities(db) ==> PositiveQuantities(t.db)
    ensures t.db == db.(carts := t.db.carts)
    ensures UserLines(t.db, userId) == []
    ensures t.out.Some? && FindCart(t.db, userId) == t.out
    ensures FindCart(db, userId).Some? ==> Get(t.out.value, "id") == Get(FindCart(db, userId).value, "id")
    ensures forall other :: other != userId ==> FindCart(t.db, other) == FindCart(db, other)
    ensures var mid := GetOrCreateByUser(db, userId, stamp).db;
            Fetched(db, mid, userId, stamp) && Saved(mid, t.db.carts, t.out.value, userId, Arr([]), now)
  {
    var got := GetOrCreateByUser(db, userId, stamp);
    SaveItems(got.db, userId, [], now)
  }
}

=== FILE: http.dfy ===
/** What a request handler hands back to Express: a status with a JSON body,
    or an exception thrown out of the handler. */
module Http {
  import opened Json
  import opened Store
  import opened Storage

  datatype Reply =
    | Reply(status: nat, body: Value)
      /** The handler threw; what the client then sees is Express's business. */
    | Thrown

  /** The outcome of one request: the store afterwards and the reply. */
  datatype Step = Step(db: Db, reply: Reply)

  /** The outcome of a Joi validation as the controllers consume it: the first
      detail message on failure, the validated value otherwise. */
  datatype Checked<T> = Rejected(message: string) | Accepted(value: T)

  /** `res.status(status).json({ error: message })`. */
  function Error(status: nat, message: string): (r: Reply)
    ensures r.Reply? && r.status == status && r.body.Obj? && r.body.fields == map["error" := Str(message)]
  {
    Reply(status, Obj(map["error" := Str(message)]))
  }

  /** `res.json(body)`: status 200. */
  function Ok(body: Value): Reply {
    Reply(200, body)
  }

  /** A list of records as a JSON array. */
  function Records(rs: seq<Record>): (v: Value)
    ensures v.Arr? && |v.elems| == |rs|
    ensures forall i :: 0 <= i < |rs| ==> v.elems[i] == Obj(rs[i])
  {
    Arr(seq(|rs|, i requires 0 <= i < |rs| => Obj(rs[i])))
  }

  /** An object holding the fields `keys` of `r` that are defined, as
      `{ a: r.a, b: r.b }` serialises. */
  function Pick(r: Record, keys: seq<string>): (m: Fields)
    ensures forall k :: k in m <==> k in keys && k in r
    ensures forall k :: k in m ==> m[k] == r[k]
  {
    if keys == [] then map[] else PutDefined(Pick(r, keys[..|keys| - 1]), keys[|keys| - 1], Get(r, keys[|keys| - 1]))
  }
}

=== FILE: json.dfy ===
/** JSON values as the service stores and returns them, with the few pieces of
    JavaScript value semantics the service relies on: `===`, truthiness, `x || d`
    and the `undefined` read of a missing field. Numbers are exact reals. */
module Json {
  import opened Wrappers

  datatype Value =
    | Null
    | Bool(b: bool)
    | Num(n: real)
    | Str(s: string)
    | Arr(elems: seq<Value>)
    | Obj(fields: map<string, Value>)

  /** A record or object body: field name to value. */
  type Fields = map<string, Value>

  /** JavaScript `a === b`. Primitives compare by value; arrays and objects compare
      by identity, and a value supplied by a caller is never the stored object. */
  predicate StrictEquals(a: Value, b: Value) {
    match a
    case Arr(_) => false
    case Obj(_) => false
    case _ => a == b
  }

  /** JavaScript truthiness: `null`, `false`, `0`, `""` are falsy; arrays and
      objects (even empty ones) are truthy. */
  predicate Truthy(v: Value) {
    match v
    case Null => false
    case Bool(b) => b
    case Num(n) => n != 0.0
    case Str(s) => s != ""
    case Arr(_) => true
    case Obj(_) => true
  }

  /** Reading `obj[k]`: None stands for `undefined`. */
  function Get(m: Fields, k: string): (r: Option<Value>)
    ensures r.Some? <==> k in m
    ensures r.Some? ==> r.value == m[k]
  {
    if k in m then Some(m[k]) else None
  }

  /** JavaScript `x || d`, where `undefined` is falsy. */
  function OrElse(x: Option<Value>, d: Value): (r: Value)
    ensures x.Some? && Truthy(x.value) ==> r == x.value
    ensures !(x.Some? && Truthy(x.value)) ==> r == d
  {
    if x.Some? && Truthy(x.value) then x.value else d
  }

  /** JavaScript `x === false` on a possibly missing field. */
  predicate IsFalse(x: Option<Value>) {
    x == Some(Bool(false))
  }

  /** An object that carries `k` only when `x` is defined, as `JSON.stringify`
      drops `undefined` members. */
  function PutDefined(m: Fields, k: string, x: Option<Value>): Fields {
    if x.Some? then m[k := x.value] else m
  }
}

=== FILE: middleware.dfy ===
/** The authentication middleware: `auth` reads `Authorization: Bearer <token>`,
    verifies the token and resolves its subject to an active user; `adminOnly`
    lets through only that user's `admin` role. Token verification is the
    parameter `verify`: it yields the `sub` claim of a token it accepts and
    None for every token it rejects. */
module AuthMiddleware {
  import opened Wrappers
  import opened Json
  import opened Store
  import opened Storage
  import opened Http
  import Users

  /** `s.split(c)`: the pieces between occurrences of `c`, empty ones included. */
  function Split(s: string, c: char): (r: seq<string>)
    ensures |r| >= 1
    ensures forall i :: 0 <= i < |r| ==> c !in r[i]
    decreases |s|
  {
    if s == [] then [""]
    else
      var rest := Split(s[1..], c);
      if s[0] == c then [""] + rest else [[s[0]] + rest[0]] + rest[1..]
  }

  /** `parts.join(c)`. */
  function Join(parts: seq<string>, c: char): string
    requires |parts| >= 1
  {
    if |parts| == 1 then parts[0] else parts[0] + [c] + Join(parts[1..], c)
  }

  /** Joining the pieces gives back the string. */
  lemma {:induction false} JoinSplit(s: string, c: char)
    ensures Join(Split(s, c), c) == s
    decreases |s|
  {
    if s != [] {
      var rest := Split(s[1..], c);
      JoinSplit(s[1..], c);
      if s[0] == c {
        assert Split(s, c) == [""] + rest;
        assert ([""] + rest)[1..] == rest;
      } else {
        var r := [[s[0]] + rest[0]] + rest[1..];
        assert Split(s, c) == r;
        if |rest| == 1 {
          assert Join(r, c) == [s[0]] + rest[0];
        } else {
          assert r[1..] == rest[1..];
          assert Join(r, c) == [s[0]] + rest[0] + [c] + Join(rest[1..], c);
          assert Join(rest, c) == rest[0] + [c] + Join(rest[1..], c);
        }
        assert s == [s[0]] + s[1..];
      }
    }
  }

  /** A piece free of `c` splits into itself. */
  lemma {:induction false} SplitPiece(a: string, c: char)
    requires c !in a
    ensures Split(a, c) == [a]
    decreases |a|
  {
    if a != [] {
      SplitPiece(a[1..], c);
      assert [a[0]] + a[1..] == a;
    }
  }

  /** Splitting at the first `c`: the piece before it, then the split of the rest. */
  lemma {:induction false} SplitFirst(a: string, c: char, b: string)
    requires c !in a
    ensures Split(a + [c] + b, c) == [a] + Split(b, c)
    decreases |a|
  {
    var s := a + [c] + b;
    if a == [] {
      assert s[0] == c && s[1..] == b;
    } else {
      assert s[0] == a[0] && s[1..] == a[1..] + [c] + b;
      SplitFirst(a[1..], c, b);
      assert [a[0]] + a[1..] == a;
    }
  }

  /** Splitting the join of pieces free of `c` gives back the pieces. */
  lemma {:induction false} SplitJoin(parts: seq<string>, c: char)
    requires |parts| >= 1
    requires forall i :: 0 <= i < |parts| ==> c !in parts[i]
    ensures Split(Join(parts, c), c) == parts
    decreases |parts|
  {
    if |parts| == 1 {
      SplitPiece(parts[0], c);
    } else {
      SplitJoin(parts[1..], c);
      SplitFirst(parts[0], c, Join(parts[1..], c));
      assert [parts[0]] + parts[1..] == parts;
    }
  }

  /** `const [scheme, token] = hdr.split(' ')` followed by
      `scheme !== 'Bearer' || !token`: the token when the header passes. */
  function BearerToken(hdr: string): (r: Option<string>)
    ensures r.Some? ==> r.value != "" && ' ' !in r.value
  {
    var parts := Split(hdr, ' ');
    if parts[0] == "Bearer" && |parts| >= 2 && parts[1] != "" then Some(parts[1]) else None
  }

  /** The headers `auth` accepts are exactly `Bearer`, one space, a non-empty
      token free of spaces, and then nothing or a space followed by anything. */
  lemma BearerTokenShape(hdr: string, token: string)
    ensures BearerToken(hdr) == Some(token) <==>
              && token != "" && ' ' !in token
              && exists rest :: hdr == "Bearer " + token + rest && (rest == "" || rest[0] == ' ')
  {
    if BearerToken(hdr) == Some(token) {
      var rest := BearerRest(hdr);
    }
    if token != "" && ' ' !in token && exists rest :: hdr == "Bearer " + token + rest && (rest == "" || rest[0] == ' ') {
      var rest :| hdr == "Bearer " + token + rest && (rest == "" || rest[0] == ' ');
      BearerFromShape(token, rest);
    }
  }

  /** What follows the token in an accepted header. */
  lemma BearerRest(hdr: string) returns (rest: string)
    requires BearerToken(hdr).Some?
    ensures hdr == "Bearer " + BearerToken(hdr).value + rest && (rest == "" || rest[0] == ' ')
  {
    var parts := Split(hdr, ' ');
    var token := parts[1];
    JoinSplit(hdr, ' ');
    rest := if |parts| == 2 then "" else [' '] + Join(parts[2..], ' ');
    assert parts[1..][1..] == parts[2..];
    assert Join(parts, ' ') == "Bearer" + [' '] + Join(parts[1..], ' ');
    assert Join(parts[1..], ' ') == token + rest;
  }

  /** A header of the accepted shape yields its token. */
  lemma BearerFromShape(token: string, rest: string)
    requires token != "" && ' ' !in token && (rest == "" || rest[0] == ' ')
    ensures BearerToken("Bearer " + token + rest) == Some(token)
  {
    var hdr := "Bearer " + token + rest;
    assert ' ' !in "Bearer";
    SplitFirst("Bearer", ' ', token + rest);
    assert hdr == "Bearer" + [' '] + (token + rest);
    if rest == "" {
      SplitPiece(token, ' ');
      assert token + rest == token;
    } else {
      SplitFirst(token, ' ', rest[1..]);
      assert token + rest == token + [' '] + rest[1..];
    }
  }

  /** `req.user`: the identity `auth` attaches to the request. */
  datatype Identity = Identity(id: string, email: Option<Value>, role: Value, name: Value)

  /** The outcome of a middleware: a reply that ends the request, or passing
      the request on with its user. */
  datatype Gate = Deny(reply: Reply) | Pass(user: Identity)

  /** The identity built from a stored user: `role` defaults to `'user'` and
      `name` to `''`. */
  function IdentityOf(id: string, u: Record): (who: Identity)
    ensures who.id == id && who.email == Get(u, "email")
    ensures Truthy(who.role) && (who.role == Str("user") || Get(u, "role") == Some(who.role))
    ensures who.name == Str("") || (Truthy(who.name) && Get(u, "name") == Some(who.name))
    ensures Get(u, "role") == Some(Str("admin")) <==> who.role == Str("admin")
    ensures "role" in u && Truthy(u["role"]) ==> who.role == u["role"]
    ensures !("role" in u && Truthy(u["role"])) ==> who.role == Str("user")
    ensures "name" in u && Truthy(u["name"]) ==> who.name == u["name"]
    ensures !("name" in u && Truthy(u["name"])) ==> who.name == Str("")
  {
    Identity(id, Get(u, "email"), OrElse(Get(u, "role"), Str("user")), OrElse(Get(u, "name"), Str("")))
  }

  /** `auth(req, res, next)` with `header` the Authorization header, None when
      it is absent. */
  function Authenticate(db: Db, header: Option<string>, verify: string -> Option<string>): (g: Gate)
    ensures g.Deny? ==> g.reply == Error(401, "Unauthorized")
    ensures g.Pass? <==>
              && BearerToken(header.GetOr("")).Some?
              && verify(BearerToken(header.GetOr("")).value).Some?
              && Users.ById(db, verify(BearerToken(header.GetOr("")).value).value).Some?
              && !IsFalse(Get(Users.ById(db, verify(BearerToken(header.GetOr("")).value).value).value, "active"))
    ensures g.Pass? ==>
              var sub := verify(BearerToken(header.GetOr("")).value).value;
              g.user == IdentityOf(sub, Users.ById(db, sub).value)
  {
    match BearerToken(header.GetOr(""))
    case None => Deny(Error(401, "Unauthorized"))
    case Some(token) =>
      match verify(token)
      case None => Deny(Error(401, "Unauthorized"))
      case Some(sub) =>
        match Users.ById(db, sub)
        case None => Deny(Error(401, "Unauthorized"))
        case Some(u) =>
          if IsFalse(Get(u, "active")) then Deny(Error(401, "Unauthorized"))
          else Pass(IdentityOf(sub, u))
  }

  /** `adminOnly(req, res, next)`: None passes the request on. */
  function AdminOnly(user: Option<Identity>): (r: Option<Reply>)
    ensures r.None? <==> user.Some? && user.value.role == Str("admin")
    ensures r.Some? ==> r.value == Error(403, "Forbidden")
  {
    if user.None? || !StrictEquals(user.value.role, Str("admin")) then Some(Error(403, "Forbidden")) else None
  }

  /** A request that passes both `auth` and `adminOnly` carries a token whose
      subject is a stored, not deactivated user whose own `role` is `'admin'`:
      the `'user'` default never opens the admin routes. */
  lemma AdminGate(db: Db, header: Option<string>, verify: string -> Option<string>)
    requires Authenticate(db, header, verify).Pass?
    requires AdminOnly(Some(Authenticate(db, header, verify).user)).None?
    ensures exists i, sub :: 0 <= i < |db.users|
              && verify(BearerToken(header.GetOr("")).value) == Some(sub)
              && HasId(db.users[i], sub)
              && Get(db.users[i], "role") == Some(Str("admin"))
              && !IsFalse(Get(db.users[i], "active"))
  {
    var sub := verify(BearerToken(header.GetOr("")).value).value;
    var u := Users.ById(db, sub).value;
    var i :| 0 <= i < |db.users| && db.users[i] == u && HasId(u, sub);
  }
}

=== FILE: orders_controller.dfy ===
/** The order endpoints: placing an order from the caller's cart, the
    caller's own orders, and the admin listing and status change. */
module OrdersController {
  import opened Wrappers
  import opened Json
  import opened Store
  import opened Storage
  import opened CartLines
  import opened Schema
  import opened Http
  import opened AuthMiddleware
  import Orders
  import Carts

  /** `create`: always 201 with the new order, an empty cart included. */
  function Create(db: Db, user: Identity, cartStamp: Stamp, orderStamp: Stamp, now: string): (s: Step)
    requires Valid(db) && CanCreateCart(db, user.id, cartStamp)
    ensures Valid(s.db)
    ensures PositiveQuantities(db) ==> PositiveQuantities(s.db)
    ensures s.db.products == db.products && s.db.users == db.users
    ensures |s.db.orders| == |db.orders| + 1 && s.db.orders == db.orders + [s.db.orders[|db.orders|]]
    ensures s.reply == Reply(201, Obj(s.db.orders[|db.orders|]))
    ensures Get(s.db.orders[|db.orders|], "id") == Some(Str(orderStamp.id))
    ensures Get(s.db.orders[|db.orders|], "status") == Some(Str("pending"))
    ensures s.db.orders[|db.orders|].Keys == Orders.OrderKeys
    ensures Get(s.db.orders[|db.orders|], "createdAt") == Some(Str(orderStamp.createdAt))
    ensures Get(s.db.orders[|db.orders|], "updatedAt") == Some(Str(orderStamp.updatedAt))
    ensures Get(s.db.orders[|db.orders|], "userId") == Some(Str(user.id))
    ensures Get(s.db.orders[|db.orders|], "items") == Some(EncodeLines(UserLines(db, user.id)))
    ensures Get(s.db.orders[|db.orders|], "total") == Some(Num(Total(UserLines(db, user.id), Orders.PriceIn(db.products))))
    ensures FindCart(s.db, user.id).Some? && UserLines(s.db, user.id) == []
    ensures FindCart(db, user.id).Some? ==>
              Get(FindCart(s.db, user.id).value, "id") == Get(FindCart(db, user.id).value, "id")
    ensures forall other :: other != user.id ==> FindCart(s.db, other) == FindCart(db, other)
    ensures var mid := Carts.GetOrCreateByUser(db, user.id, cartStamp).db;
            Carts.Fetched(db, mid, user.id, cartStamp) && Saved(mid, s.db.carts, FindCart(s.db, user.id).value, user.id, Arr([]), now)
  {
    var t := Orders.CreateFromCart(db, user.id, cartStamp, orderStamp, now);
    Step(t.db, Reply(201, Obj(t.out)))
  }

  /** An order placed from an empty cart costs nothing and holds no items. */
  lemma EmptyCartOrder(db: Db, user: Identity, cartStamp: Stamp, orderStamp: Stamp, now: string)
    requires Valid(db) && CanCreateCart(db, user.id, cartStamp) && UserLines(db, user.id) == []
    ensures var s := Create(db, user, cartStamp, orderStamp, now);
            && s.reply.Reply? && s.reply.status == 201
            && Get(s.db.orders[|db.orders|], "items") == Some(Arr([]))
            && Get(s.db.orders[|db.orders|], "total") == Some(Num(0.0))
  {
  }

  /** `o.userId === req.user.id`. */
  function PlacedBy(userId: string): Record -> bool {
    o => Get(o, "userId") == Some(Str(userId))
  }

  /** The caller's orders: every order whose `userId` is the caller's id, in
      insertion order, each as often as it is stored. */
  function Mine(orders: seq<Record>, userId: string): (r: seq<Record>)
    ensures forall o :: o in r <==> o in orders && Get(o, "userId") == Some(Str(userId))
    ensures forall o :: multiset(r)[o] == if Get(o, "userId") == Some(Str(userId)) then multiset(orders)[o] else 0
  {
    FilterCount(orders, PlacedBy(userId));
    Filter(orders, PlacedBy(userId))
  }

  /** `Mine` keeps insertion order: it distributes over concatenation. */
  lemma MineInOrder(a: seq<Record>, b: seq<Record>, userId: string)
    ensures Mine(a + b, userId) == Mine(a, userId) + Mine(b, userId)
  {
    FilterConcat(a, b, PlacedBy(userId));
  }

  /** `listMine`: 200 with the caller's orders; nothing changes. */
  function ListMine(db: Db, user: Identity): (s: Step)
    ensures s.db == db && s.reply.Reply? && s.reply.status == 200
    ensures s.reply.body == Records(Mine(db.orders, user.id))
    ensures s.reply.body.Arr? && |s.reply.body.elems| <= |db.orders|
    ensures forall o :: Obj(o) in s.reply.body.elems <==> o in db.orders && Get(o, "userId") == Some(Str(user.id))
  {
    var mine := Mine(db.orders, user.id);
    var v := Records(mine);
    assert forall o :: Obj(o) in v.elems <==> o in mine by {
      forall o ensures Obj(o) in v.elems <==> o in mine {
        if o in mine {
          var i :| 0 <= i < |mine| && mine[i] == o;
          assert v.elems[i] == Obj(o);
        }
      }
    }
    Step(db, Ok(v))
  }

  /** `adminList`: 200 with every order, unfiltered and in order. */
  function AdminList(db: Db): (s: Step)
    ensures s == Step(db, Ok(Records(db.orders)))
  {
    Step(db, Ok(Records(Orders.All(db))))
  }

  /** `adminUpdateStatus`: 400 when the body's `status` is missing or falsy
      (nothing changes), 404 for an unknown order, otherwise 200 with the
      order whose `status` was overwritten. `body` is the request body, an
      absent body being the empty object. */
  function AdminUpdateStatus(db: Db, id: string, body: Fields, now: string): (s: Step)
    ensures Valid(db) ==> Valid(s.db)
    ensures PositiveQuantities(db) ==> PositiveQuantities(s.db)
    ensures s.db == db.(orders := s.db.orders) && |s.db.orders| == |db.orders|
    ensures !Truthy(OrElse(Get(body, "status"), Null)) ==> s == Step(db, Error(400, "status is required"))
    ensures Truthy(OrElse(Get(body, "status"), Null)) && FindById(db.orders, id).None? ==>
              s == Step(db, Error(404, "Not found"))
    ensures s.reply.Reply? && s.reply.status == 200 <==>
              Truthy(OrElse(Get(body, "status"), Null)) && FindById(db.orders, id).Some?
    ensures s.reply.Reply? && s.reply.status == 200 ==>
              && s.reply.body.Obj?
              && Get(s.reply.body.fields, "status") == Get(body, "status")
              && forall k :: k != "status" && k != "updatedAt" ==>
                   Get(s.reply.body.fields, k) == Get(FindById(db.orders, id).value, k)
    ensures s.reply.Reply? && s.reply.status == 200 ==>
              && s.reply.body.Obj? && IndexOfId(db.orders, id).Some?
              && var i := IndexOfId(db.orders, id).value;
                 && s.db.orders == db.orders[i := s.reply.body.fields]
                 && IsMergeOf(s.reply.body.fields, db.orders[i], map["status" := OrElse(Get(body, "status"), Null)], id, now)
  {
    var status := Get(body, "status");
    if status.None? || !Truthy(status.value) then Step(db, Error(400, "status is required"))
    else
      var t := Orders.UpdateStatus(db, id, status.value, now);
      if t.out.None? then Step(db, Error(404, "Not found"))
      else Step(t.db, Ok(Obj(t.out.value)))
  }
}

=== FILE: products_controller.dfy ===
/** The product endpoints: the public listing and detail view, and the admin
    create, update and delete. The product validators are the `Checked`
    bodies; what they promise of a price is their precondition. */
module ProductsController {
  import opened Wrappers
  import opened Json
  import opened Store
  import opened Storage
  import opened Schema
  import opened Http
  import Products

  /** `list`: 200 with the listed products in insertion order. */
  function List(db: Db): (s: Step)
    ensures s.db == db && s.reply.Reply? && s.reply.status == 200
    ensures s.reply.body == Records(Products.All(db))
    ensures s.reply.body.Arr? && |s.reply.body.elems| <= |db.products|
    ensures forall p :: Obj(p) in s.reply.body.elems <==> p in db.products && !IsFalse(Get(p, "active"))
  {
    var listed := Products.All(db);
    var v := Records(listed);
    assert forall p :: Obj(p) in v.elems <==> p in listed by {
      forall p ensures Obj(p) in v.elems <==> p in listed {
        if p in listed {
          var i :| 0 <= i < |listed| && listed[i] == p;
          assert v.elems[i] == Obj(p);
        }
      }
    }
    Step(db, Ok(v))
  }

  /** `get`: 404 for a missing product and for one switched off, otherwise 200
      with the product. Nothing changes. */
  function Show(db: Db, id: string): (s: Step)
    ensures s.db == db
    ensures s.reply.Reply? && s.reply.status == 200 <==>
              FindById(db.products, id).Some? && !IsFalse(Get(FindById(db.products, id).value, "active"))
    ensures s.reply.Reply? && s.reply.status == 200 ==> s.reply.body == Obj(FindById(db.products, id).value)
    ensures !(s.reply.Reply? && s.reply.status == 200) ==> s.reply == Error(404, "Not found")
  {
    match Products.ById(db, id)
    case None => Step(db, Error(404, "Not found"))
    case Some(p) => if IsFalse(Get(p, "active")) then Step(db, Error(404, "Not found")) else Step(db, Ok(Obj(p)))
  }

  /** `adminCreate`: 400 on a rejected body with nothing created, otherwise
      201 with the one product appended. */
  function AdminCreate(db: Db, body: Checked<Fields>, stamp: Stamp): (s: Step)
    requires body.Accepted? ==> "price" in body.value && Products.PriceOk(body.value)
    ensures Valid(db) ==> Valid(s.db)
    ensures PositiveQuantities(db) ==> PositiveQuantities(s.db)
    ensures body.Rejected? ==> s == Step(db, Error(400, body.message))
    ensures body.Accepted? ==>
              && |s.db.products| == |db.products| + 1
              && s.db == db.(products := db.products + [s.db.products[|db.products|]])
              && s.reply == Reply(201, Obj(s.db.products[|db.products|]))
              && (forall k :: k in body.value ==> Get(s.db.products[|db.products|], k) == Some(body.value[k]))
              && IsCreatedFrom(s.db.products[|db.products|], body.value, stamp)
  {
    match body
    case Rejected(message) => Step(db, Error(400, message))
    case Accepted(data) =>
      var t := Products.Create(db, data, stamp);
      Step(t.db, Reply(201, Obj(t.out)))
  }

  /** `adminUpdate`: validation first (400), then existence (404), otherwise
      200 with the merged product. */
  function AdminUpdate(db: Db, id: string, body: Checked<Fields>, now: string): (s: Step)
    requires body.Accepted? ==> Products.PriceOk(body.value)
    ensures Valid(db) ==> Valid(s.db)
    ensures PositiveQuantities(db) ==> PositiveQuantities(s.db)
    ensures s.db == db.(products := s.db.products) && |s.db.products| == |db.products|
    ensures body.Rejected? ==> s == Step(db, Error(400, body.message))
    ensures body.Accepted? && FindById(db.products, id).None? ==> s == Step(db, Error(404, "Not found"))
    ensures s.reply.Reply? && s.reply.status == 200 <==> body.Accepted? && FindById(db.products, id).Some?
    ensures s.reply.Reply? && s.reply.status == 200 ==>
              && s.reply.body.Obj?
              && forall k :: k in body.value && k != "id" && k != "updatedAt" ==>
                   Get(s.reply.body.fields, k) == Some(body.value[k])
    ensures s.reply.Reply? && s.reply.status == 200 ==>
              && s.reply.body.Obj? && IndexOfId(db.products, id).Some?
              && var i := IndexOfId(db.products, id).value;
                 && s.db.products == db.products[i := s.reply.body.fields]
                 && IsMergeOf(s.reply.body.fields, db.products[i], body.value, id, now)
  {
    match body
    case Rejected(message) => Step(db, Error(400, message))
    case Accepted(updates) =>
      var t := Products.Update(db, id, updates, now);
      if t.out.None? then Step(db, Error(404, "Not found")) else Step(t.db, Ok(Obj(t.out.value)))
  }

  /** `adminRemove`: 204 with no body exactly when a product was removed,
      404 otherwise with nothing changed. */
  function AdminRemove(db: Db, id: string): (s: Step)
    ensures Valid(db) ==> Valid(s.db)
    ensures PositiveQuantities(db) ==> PositiveQuantities(s.db)
    ensures s.reply.Reply? && s.reply.status == 204 <==> FindById(db.products, id).Some?
    ensures s.reply.Reply? && s.reply.status == 204 ==>
              s.reply.body == Null && s.db == db.(products := s.db.products)
              && (forall p :: p in s.db.products <==> p in db.products && !HasId(p, id))
              && (forall p :: multiset(s.db.products)[p] == if HasId(p, id) then 0 else multiset(db.products)[p])
              && s.db.products == Store.Remove(db.products, id).records
    ensures FindById(db.products, id).None? ==> s == Step(db, Error(404, "Not found"))
  {
    var t := Products.Remove(db, id);
    if !t.out then Step(db, Error(404, "Not found")) else Step(t.db, Reply(204, Null))
  }

  /** A product an admin just created is shown by `get` under its new id,
      unless the body switched it off; the id oracle must hand out an id no
      product holds yet. */
  lemma CreatedProductIsShown(db: Db, data: Fields, stamp: Stamp)
    requires "price" in data && Products.PriceOk(data)
    requires "id" !in data && !IsFalse(Get(data, "active"))
    requires forall j :: 0 <= j < |db.products| ==> !HasId(db.products[j], stamp.id)
    ensures var created := AdminCreate(db, Accepted(data), stamp);
            var shown := Show(created.db, stamp.id);
            && shown.reply.Reply? && shown.reply.status == 200
            && shown.reply == Ok(created.reply.body)
  {
    var created := AdminCreate(db, Accepted(data), stamp);
    var p := created.db.products[|db.products|];
    assert created.db.products == db.products + [p];
    assert HasId(p, stamp.id);
    FirstIndexAppend(db.products, p, WithId(stamp.id));
    assert FindById(created.db.products, stamp.id) == Some(p);
  }
}

=== FILE: repositories.dfy ===
/** The product repository: `Products.all` lists the products not switched
    off, the rest are plain store calls. Products created or updated through
    the validated admin flows keep a numeric price of at least 0. */
module Products {
  import opened Wrappers
  import opened Json
  import opened Store
  import opened Storage
  import opened Schema

  /** `p.active !== false`: a missing flag counts as active. */
  predicate Listed(p: Record) {
    !IsFalse(Get(p, "active"))
  }

  /** What the product validators promise of a price they let through. */
  predicate PriceOk(fields: Fields) {
    "price" in fields ==> fields["price"].Num? && fields["price"].n >= 0.0
  }

  /** `Products.all()`: the listed products, in insertion order. */
  function All(db: Db): (r: seq<Record>)
    ensures forall x :: x in r <==> x in db.products && Listed(x)
    ensures forall x :: multiset(r)[x] == if Listed(x) then multiset(db.products)[x] else 0
  {
    FindAll(db.products, Some(Listed))
  }

  /** The listing keeps insertion order: listing a concatenation lists each part in turn. */
  lemma AllInOrder(db: Db, a: seq<Record>, b: seq<Record>)
    ensures All(db.(products := a + b)) == All(db.(products := a)) + All(db.(products := b))
  {
    FilterConcat(a, b, Listed);
  }

  /** `Products.byId(id)`: the first product whose id is `id`. */
  function ById(db: Db, id: string): (r: Option<Record>)
    ensures r.None? <==> forall j :: 0 <= j < |db.products| ==> !HasId(db.products[j], id)
    ensures r.Some? ==> exists i :: 0 <= i < |db.products| && db.products[i] == r.value && HasId(r.value, id)
                                   && forall j :: 0 <= j < i ==> !HasId(db.products[j], id)
  {
    FindById(db.products, id)
  }

  /** `Products.create(data)`. */
  function Create(db: Db, data: Fields, stamp: Stamp): (t: Tx<Record>)
    ensures t.db == db.(products := db.products + [t.out])
    ensures forall k :: k in data ==> Get(t.out, k) == Some(data[k])
    ensures IsCreatedFrom(t.out, data, stamp)
    ensures Valid(db) && "price" in data && PriceOk(data) ==> Valid(t.db)
    ensures PositiveQuantities(db) ==> PositiveQuantities(t.db)
  {
    var w := Store.Create(db.products, data, stamp);
    Tx(db.(products := w.records), w.record)
  }

  /** `Products.update(id, updates)`. */
  function Update(db: Db, id: string, updates: Fields, now: string): (t: Tx<Option<Record>>)
    ensures t.db == db.(products := t.db.products) && |t.db.products| == |db.products|
    ensures t.out.None? <==> forall j :: 0 <= j < |db.products| ==> !HasId(db.products[j], id)
    ensures t.out.None? ==> t.db == db
    ensures t.out.Some? ==> forall k :: k in updates && k != "id" && k != "updatedAt" ==> Get(t.out.value, k) == Some(updates[k])
    ensures t.out.Some? ==> IndexOfId(db.products, id).Some?
    ensures t.out.Some? ==>
              var i := IndexOfId(db.products, id).value;
              t.db.products == db.products[i := t.out.value] && IsMergeOf(t.out.value, db.products[i], updates, id, now)
    ensures Valid(db) && PriceOk(updates) ==> Valid(t.db)
    ensures PositiveQuantities(db) ==> PositiveQuantities(t.db)
  {
    var u := Store.Update(db.products, id, updates, now);
    UpdateKeepsPrices(db.products, id, updates, now);
    Tx(db.(products := u.records), u.record)
  }

  lemma UpdateKeepsPrices(ps: seq<Record>, id: string, updates: Fields, now: string)
    ensures ProductsOk(ps) && PriceOk(updates) ==> ProductsOk(Store.Update(ps, id, updates, now).records)
  {
    var u := Store.Update(ps, id, updates, now);
    if ProductsOk(ps) && PriceOk(updates) && u.record.Some? {
      var i := IndexOfId(ps, id).value;
      assert ProductOk(ps[i]);
      assert ProductOk(u.record.value);
      forall p | p in u.records
        ensures ProductOk(p)
      {
        var j :| 0 <= j < |u.records| && u.records[j] == p;
        if j != i {
          assert u.records[j] == ps[j];
        }
      }
    }
  }

  /** `Products.remove(id)`. */
  function Remove(db: Db, id: string): (t: Tx<bool>)
    ensures t.db == db.(products := t.db.products)
    ensures t.out <==> exists j :: 0 <= j < |db.products| && HasId(db.products[j], id)
    ensures !t.out ==> t.db == db
    ensures forall x :: x in t.db.products <==> x in db.products && !HasId(x, id)
    ensures forall x :: multiset(t.db.products)[x] == if HasId(x, id) then 0 else multiset(db.products)[x]
    ensures t.db.products == Store.Remove(db.products, id).records
    ensures Valid(db) ==> Valid(t.db)
    ensures PositiveQuantities(db) ==> PositiveQuantities(t.db)
  {
    var d := Store.Remove(db.products, id);
    Tx(db.(products := d.records), d.changed)
  }
}

/** The user repository: lookups by id and by exact email, and creation. */
module Users {
  import opened Wrappers
  import opened Json
  import opened Store
  import opened Storage
  import opened Schema

  lemma MatchesEmail(r: Record, email: string)
    ensures Matches(r, map["email" := Str(email)]) <==> Get(r, "email") == Some(Str(email))
  {
    assert "email" in map["email" := Str(email)];
  }

  /** `Users.byId(id)`: the first user whose id is `id`. */
  function ById(db: Db, id: string): (r: Option<Record>)
    ensures r.None? <==> forall j :: 0 <= j < |db.users| ==> !HasId(db.users[j], id)
    ensures r.Some? ==> exists i :: 0 <= i < |db.users| && db.users[i] == r.value && HasId(r.value, id)
                                   && forall j :: 0 <= j < i ==> !HasId(db.users[j], id)
  {
    FindById(db.users, id)
  }

  /** `Users.byEmail(email)`: `findOne({ email })`, an exact, case-sensitive match. */
  function ByEmail(db: Db, email: string): (r: Option<Record>)
    ensures r.None? <==> forall j :: 0 <= j < |db.users| ==> Get(db.users[j], "email") != Some(Str(email))
    ensures r.Some? ==> exists i :: 0 <= i < |db.users| && db.users[i] == r.value
                                   && Get(db.users[i], "email") == Some(Str(email))
                                   && forall j :: 0 <= j < i ==> Get(db.users[j], "email") != Some(Str(email))
  {
    var r := FindOne(db.users, map["email" := Str(email)]);
    forall j | 0 <= j < |db.users| {
      MatchesEmail(db.users[j], email);
    }
    r
  }

  /** A user appended to the collection is found by its email exactly when no
      earlier user holds that email. */
  lemma ByEmailAppend(db: Db, u: Record, email: string)
    ensures ByEmail(db.(users := db.users + [u]), email) ==
              if ByEmail(db, email).Some? then ByEmail(db, email)
              else if Get(u, "email") == Some(Str(email)) then Some(u) else None
  {
    FindOneAppend(db.users, u, map["email" := Str(email)]);
    MatchesEmail(u, email);
  }

  /** `Users.create(data)`. */
  function Create(db: Db, data: Fields, stamp: Stamp): (t: Tx<Record>)
    ensures t.db == db.(users := db.users + [t.out])
    ensures forall k :: k in data ==> Get(t.out, k) == Some(data[k])
    ensures "id" !in data ==> Get(t.out, "id") == Some(Str(stamp.id))
    ensures IsCreatedFrom(t.out, data, stamp)
    ensures Valid(db) ==> Valid(t.db)
    ensures PositiveQuantities(db) ==> PositiveQuantities(t.db)
  {
    var w := Store.Create(db.users, data, stamp);
    Tx(db.(users := w.records), w.record)
  }
}

/** The order repository: orders placed from a cart snapshot, and status
    overwrites. */
module Orders {
  import opened Wrappers
  import opened Json
  import opened Store
  import opened Storage
  import opened CartLines
  import opened Schema
  import Carts

  /** `prod ? Number(prod.price) : 0` for `prod = products().findById(pid)`. */
  function PriceOf(products: seq<Record>, pid: string): (r: real)
    ensures FindById(products, pid).None? ==> r == 0.0
    ensures FindById(products, pid).Some? && ProductOk(FindById(products, pid).value) ==>
              r == FindById(products, pid).value["price"].n
    ensures ProductsOk(products) ==> r >= 0.0
  {
    match FindById(products, pid)
    case None => 0.0
    // A valid store holds numeric prices only, so the second branch is not reached there.
    case Some(p) =>
      assert p in products;
      if "price" in p && p["price"].Num? then p["price"].n else 0.0
  }

  function PriceIn(products: seq<Record>): string -> real {
    pid => PriceOf(products, pid)
  }

  /** `Orders.all()`: every order, in insertion order. */
  function All(db: Db): (r: seq<Record>)
    ensures r == db.orders
  {
    FindAll(db.orders, None)
  }

  /** The members of a stored order: the generated three and the payload's four. */
  const OrderKeys: set<string> := {"id", "createdAt", "updatedAt", "userId", "items", "status", "total"}

  /** The order record `createFromCart` stores. */
  function OrderFields(userId: string, items: Value, total: real): Fields {
    map["userId" := Str(userId), "items" := items, "status" := Str("pending"), "total" := Num(total)]
  }

  /** `Orders.createFromCart(userId)`: snapshots the user's cart into a new
      pending order priced at the current product prices, then clears the cart. */
  function CreateFromCart(db: Db, userId: string, cartStamp: Stamp, orderStamp: Stamp, now: string)
    : (t: Tx<Record>)
    requires Valid(db) && CanCreateCart(db, userId, cartStamp)
    ensures Valid(t.db)
    ensures PositiveQuantities(db) ==> PositiveQuantities(t.db)
    ensures t.db.products == db.products && t.db.users == db.users
    ensures t.db.orders == db.orders + [t.out]
    ensures Get(t.out, "id") == Some(Str(orderStamp.id))
    ensures Get(t.out, "userId") == Some(Str(userId))
    ensures Get(t.out, "status") == Some(Str("pending"))
    ensures Get(t.out, "items") == Some(EncodeLines(UserLines(db, userId)))
    ensures Get(t.out, "total") == Some(Num(Total(UserLines(db, userId), PriceIn(db.products))))
    ensures t.out.Keys == OrderKeys
    ensures Get(t.out, "createdAt") == Some(Str(orderStamp.createdAt))
    ensures Get(t.out, "updatedAt") == Some(Str(orderStamp.updatedAt))
    ensures FindCart(t.db, userId).Some? && UserLines(t.db, userId) == []
    ensures FindCart(db, userId).Some? ==>
              Get(FindCart(t.db, userId).value, "id") == Get(FindCart(db, userId).value, "id")
    ensures forall other :: other != userId ==> FindCart(t.db, other) == FindCart(db, other)
    ensures var mid := Carts.GetOrCreateByUser(db, userId, cartStamp).db;
            Carts.Fetched(db, mid, userId, cartStamp) && Saved(mid, t.db.carts, FindCart(t.db, userId).value, userId, Arr([]), now)
  {
    var got := Carts.GetOrCreateByUser(db, userId, cartStamp);
    var cart := got.out;
    UserLinesOfCart(got.db, userId, cart);
    var items := OrElse(Get(cart, "items"), Arr([]));
    assert items == EncodeLines(UserLines(db, userId));
    DecodeEncode(UserLines(db, userId));
    var w := NewOrder(got.db.orders, got.db.products, userId, items, orderStamp);
    var placed := got.db.(orders := w.records);
    var cleared := Carts.Clear(placed, userId, cartStamp, now);
    assert CartSlot(placed, userId) == CartSlot(got.db, userId) && FindCart(placed, userId) == FindCart(got.db, userId);
    Tx(cleared.db, w.record)
  }

  /** The order `createFromCart` appends for the cart items `items`: the items
      as they are, status `pending`, and the total folded over the lines. */
  function NewOrder(orders: seq<Record>, products: seq<Record>, userId: string, items: Value, orderStamp: Stamp)
    : (w: Written)
    requires DecodeLines(items).Some?
    ensures w.records == orders + [w.record]
    ensures Get(w.record, "id") == Some(Str(orderStamp.id))
    ensures Get(w.record, "userId") == Some(Str(userId))
    ensures Get(w.record, "status") == Some(Str("pending"))
    ensures Get(w.record, "items") == Some(items)
    ensures Get(w.record, "total") == Some(Num(Total(DecodeLines(items).value, PriceIn(products))))
    ensures w.record.Keys == OrderKeys
    ensures Get(w.record, "createdAt") == Some(Str(orderStamp.createdAt))
    ensures Get(w.record, "updatedAt") == Some(Str(orderStamp.updatedAt))
  {
    var total := OrderTotal(products, DecodeLines(items).value);
    var w := Store.Create(orders, OrderFields(userId, items, total), orderStamp);
    OrderShape(w.record, userId, items, total, orderStamp);
    w
  }

  /** A record created from the order fields holds exactly the order's members. */
  lemma OrderShape(r: Record, userId: string, items: Value, total: real, orderStamp: Stamp)
    requires IsCreatedFrom(r, OrderFields(userId, items, total), orderStamp)
    ensures r.Keys == OrderKeys
    ensures Get(r, "id") == Some(Str(orderStamp.id))
    ensures Get(r, "createdAt") == Some(Str(orderStamp.createdAt))
    ensures Get(r, "updatedAt") == Some(Str(orderStamp.updatedAt))
    ensures Get(r, "userId") == Some(Str(userId)) && Get(r, "status") == Some(Str("pending"))
    ensures Get(r, "items") == Some(items) && Get(r, "total") == Some(Num(total))
  {
    var payload := OrderFields(userId, items, total);
    assert payload.Keys == {"userId", "items", "status", "total"};
  }

  /** `cart.items.reduce((sum, item) => sum + price * item.qty, 0)`. */
  function OrderTotal(products: seq<Record>, lines: seq<Line>): (r: real)
    ensures r == Total(lines, PriceIn(products))
  {
    ReduceIsTotal(0.0, lines, PriceIn(products));
    Reduce(0.0, lines, PriceIn(products))
  }

  /** A line for a product that no longer exists adds nothing to the total. */
  lemma TotalIgnoresMissing(ls: seq<Line>, products: seq<Record>, pid: string)
    requires FindById(products, pid).None?
    ensures Total(ls, PriceIn(products)) == Total(Drop(ls, pid), PriceIn(products))
  {
    assert PriceIn(products)(pid) == 0.0;
    TotalIgnoresFree(ls, PriceIn(products), pid);
  }

  /** In a valid store whose cart quantities are positive, an order total is
      never negative. */
  lemma TotalNonNegativeInValidStore(db: Db, userId: string)
    requires Valid(db) && PositiveQuantities(db)
    ensures Total(UserLines(db, userId), PriceIn(db.products)) >= 0.0
  {
    var ls := UserLines(db, userId);
    if FindCart(db, userId).Some? {
      CartSlotFinds(db, userId);
      FoundCartOk(db, userId);
      assert Positive(Lines(db.carts[CartSlot(db, userId).value]));
    }
    TotalNonNegative(ls, PriceIn(db.products));
  }

  /** `Orders.updateStatus(id, status)`: overwrites `status` with any value;
      every other field but `updatedAt` is kept. */
  function UpdateStatus(db: Db, id: string, status: Value, now: string): (t: Tx<Option<Record>>)
    ensures t.db == db.(orders := t.db.orders) && |t.db.orders| == |db.orders|
    ensures t.out.None? <==> forall j :: 0 <= j < |db.orders| ==> !HasId(db.orders[j], id)
    ensures t.out.None? ==> t.db == db
    ensures t.out.Some? ==> FindById(db.orders, id).Some? && Get(t.out.value, "status") == Some(status)
    ensures t.out.Some? ==>
              forall k :: k != "status" && k != "updatedAt" ==>
                Get(t.out.value, k) == Get(FindById(db.orders, id).value, k)
    ensures t.out.Some? ==> IndexOfId(db.orders, id).Some?
    ensures t.out.Some? ==>
              var i := IndexOfId(db.orders, id).value;
              t.db.orders == db.orders[i := t.out.value] && IsMergeOf(t.out.value, db.orders[i], map["status" := status], id, now)
    ensures Valid(db) ==> Valid(t.db)
    ensures PositiveQuantities(db) ==> PositiveQuantities(t.db)
  {
    var u := Store.Update(db.orders, id, map["status" := status], now);
    Tx(db.(orders := u.records), u.record)
  }
}

=== FILE: schema.dfy ===
/** The shape the domain repositories rely on in the stored records, and the
    one cart write they all share (`carts().update(cart.id, { items })`).
    Carts are looked up by `findOne({ userId })`. */
module Schema {
  import opened Wrappers
  import opened Json
  import opened Store
  import opened Storage
  import opened CartLines

  /** A database after an operation, and the operation's return value. */
  datatype Tx<T> = Tx(db: Db, out: T)

  /** A priced product: `price` is a number of at least 0, as the product
      validators and the seed data guarantee. */
  predicate ProductOk(p: Record) {
    "price" in p && p["price"].Num? && p["price"].n >= 0.0
  }

  predicate ProductsOk(ps: seq<Record>) {
    forall p :: p in ps ==> ProductOk(p)
  }

  /** A well-formed cart: string `id` and `userId`, and `items` holding line
      objects with no two lines for the same product. */
  predicate CartOk(c: Record) {
    && "id" in c && c["id"].Str?
    && "userId" in c && c["userId"].Str?
    && "items" in c && DecodeLines(c["items"]).Some?
    && NoDup(DecodeLines(c["items"]).value)
  }

  /** Every cart well-formed, cart ids pairwise distinct, and at most one cart
      per user. */
  predicate CartsOk(cs: seq<Record>) {
    && (forall i :: 0 <= i < |cs| ==> CartOk(cs[i]))
    && (forall i, j :: 0 <= i < j < |cs| ==> Get(cs[i], "id") != Get(cs[j], "id"))
    && (forall i, j :: 0 <= i < j < |cs| ==> Get(cs[i], "userId") != Get(cs[j], "userId"))
  }

  /** The store invariant every operation keeps. */
  predicate Valid(db: Db) {
    ProductsOk(db.products) && CartsOk(db.carts)
  }

  /** `init` keeps the store invariant: the demo products are priced and no
      cart is touched. */
  lemma InitKeepsValid(db: Db, stamps: nat -> Stamp)
    requires Valid(db)
    ensures Valid(Init(db, stamps))
    ensures PositiveQuantities(db) ==> PositiveQuantities(Init(db, stamps))
  {
    var r := Init(db, stamps);
    if !db.initialized && db.products == [] {
      var ps := CreateEach([], DemoProducts(), stamps, 0);
      assert r.products == ps;
      forall p | p in ps
        ensures ProductOk(p)
      {
        var k :| 0 <= k < |ps| && ps[k] == p;
        DemoProductPriced(k);
        var payload := DemoProducts()[k];
        assert ps[k] == Generated(stamps(k)) + payload;
      }
    }
  }

  /** Every demo product carries a price of at least 0. */
  lemma DemoProductPriced(k: nat)
    requires k < |DemoProducts()|
    ensures ProductOk(DemoProducts()[k])
  {
    var ps := DemoProducts();
    assert ps[0]["price"] == Num(24.99) && ps[1]["price"] == Num(49.99) && ps[2]["price"] == Num(89.0);
  }

  function Lines(c: Record): seq<Line>
    requires CartOk(c)
  {
    DecodeLines(c["items"]).value
  }

  /** Every cart line holds at least one unit; kept by requests whose
      quantities passed validation. */
  predicate PositiveQuantities(db: Db) {
    forall i :: 0 <= i < |db.carts| && CartOk(db.carts[i]) ==> Positive(Lines(db.carts[i]))
  }

  /** The `where` of `findOne({ userId })`. */
  function ByUser(userId: string): Fields {
    map["userId" := Str(userId)]
  }

  lemma MatchesByUser(r: Record, userId: string)
    ensures Matches(r, ByUser(userId)) <==> "userId" in r && r["userId"] == Str(userId)
  {
    assert "userId" in ByUser(userId);
  }

  /** The user's cart: `carts().findOne({ userId })`. */
  function FindCart(db: Db, userId: string): (r: Option<Record>)
    ensures r.None? <==> forall j :: 0 <= j < |db.carts| ==> Get(db.carts[j], "userId") != Some(Str(userId))
    ensures r.Some? ==> exists i :: 0 <= i < |db.carts| && db.carts[i] == r.value && Get(r.value, "userId") == Some(Str(userId))
                                   && forall j :: 0 <= j < i ==> Get(db.carts[j], "userId") != Some(Str(userId))
  {
    var r := FindOne(db.carts, ByUser(userId));
    assert forall c :: Matches(c, ByUser(userId)) <==> Get(c, "userId") == Some(Str(userId)) by {
      forall c ensures Matches(c, ByUser(userId)) <==> Get(c, "userId") == Some(Str(userId)) {
        MatchesByUser(c, userId);
      }
    }
    r
  }

  /** The position of the user's cart in the carts collection. */
  function CartSlot(db: Db, userId: string): Option<nat> {
    FirstIndex(db.carts, Matching(ByUser(userId)))
  }

  lemma CartSlotFinds(db: Db, userId: string)
    ensures CartSlot(db, userId).Some? <==> FindCart(db, userId).Some?
    ensures CartSlot(db, userId).Some? ==> FindCart(db, userId) == Some(db.carts[CartSlot(db, userId).value])
  {
  }

  /** The lines in the user's cart; none when the user has no cart. */
  function UserLines(db: Db, userId: string): seq<Line> {
    match FindCart(db, userId)
    case None => []
    case Some(c) => if "items" in c && DecodeLines(c["items"]).Some? then DecodeLines(c["items"]).value else []
  }

  /** The stamp may be used to create the user's cart: either the user already
      has one (no creation happens), or the stamp's id is not taken by a cart. */
  predicate CanCreateCart(db: Db, userId: string, stamp: Stamp) {
    FindCart(db, userId).Some? || forall j :: 0 <= j < |db.carts| ==> !HasId(db.carts[j], stamp.id)
  }

  /** In a valid store the user's cart is found by its own id at its slot. */
  lemma CartIdFindsSlot(db: Db, userId: string)
    requires Valid(db) && CartSlot(db, userId).Some?
    ensures var i := CartSlot(db, userId).value;
            IndexOfId(db.carts, db.carts[i]["id"].s) == Some(i)
  {
    var i := CartSlot(db, userId).value;
    var id := db.carts[i]["id"].s;
    forall j, k | 0 <= j < k < |db.carts| && HasId(db.carts[j], id)
      ensures !HasId(db.carts[k], id)
    {
      assert Get(db.carts[j], "id") != Get(db.carts[k], "id");
    }
    IndexOfDistinctId(db.carts, i, id);
  }

  /** Replacing the cart at `i` by one with the same `userId` changes no
      other user's cart lookup. */
  lemma OtherCartsAfterReplace(cs: seq<Record>, i: nat, r: Record, userId: string, other: string)
    requires i < |cs| && "userId" in cs[i] && "userId" in r
    requires r["userId"] == cs[i]["userId"] == Str(userId)
    requires other != userId
    ensures FindOne(cs[i := r], ByUser(other)) == FindOne(cs, ByUser(other))
  {
    MatchesByUser(r, other);
    MatchesByUser(cs[i], other);
    FirstIndexPointUpdate(cs, i, r, Matching(ByUser(other)));
    var s' := cs[i := r];
    match FirstIndex(cs, Matching(ByUser(other)))
    case None =>
    case Some(j) =>
      MatchesByUser(cs[j], other);
      assert j != i;
      assert s'[j] == cs[j];
  }

  /** A cart found in a valid store is well-formed. */
  lemma FoundCartOk(db: Db, userId: string)
    requires Valid(db) && FindCart(db, userId).Some?
    ensures CartOk(FindCart(db, userId).value)
  {
    CartSlotFinds(db, userId);
  }

  /** In a valid store no user's cart holds two lines for one product. */
  lemma UserLinesNoDup(db: Db, userId: string)
    requires Valid(db)
    ensures NoDup(UserLines(db, userId))
  {
    if FindCart(db, userId).Some? {
      FoundCartOk(db, userId);
    }
  }

  /** Replacing one cart by a well-formed cart with the same id and user
      keeps the carts collection well-formed. */
  lemma ReplaceCartOk(cs: seq<Record>, i: nat, r: Record)
    requires CartsOk(cs) && i < |cs| && CartOk(r)
    requires Get(r, "id") == Get(cs[i], "id") && Get(r, "userId") == Get(cs[i], "userId")
    ensures CartsOk(cs[i := r])
  {
    var cs' := cs[i := r];
    assert forall j :: 0 <= j < |cs'| ==> Get(cs'[j], "id") == Get(cs[j], "id");
    assert forall j :: 0 <= j < |cs'| ==> Get(cs'[j], "userId") == Get(cs[j], "userId");
  }

  /** The cart record `{...cart, items, id: cart.id, updatedAt: now}`. */
  function WithItems(c: Record, ls: seq<Line>, now: string): (r: Record)
    requires CartOk(c)
    ensures "id" in r && "userId" in r && "updatedAt" in r
    ensures r["id"] == c["id"] && r["userId"] == c["userId"] && r["updatedAt"] == Str(now)
    ensures NoDup(ls) ==> CartOk(r) && Lines(r) == ls
  {
    DecodeEncode(ls);
    (c + map["items" := EncodeLines(ls)])["id" := Str(c["id"].s)]["updatedAt" := Str(now)]
  }

  /** The update that `SaveItems` performs hits exactly the user's cart. */
  lemma SaveItemsUpdate(db: Db, userId: string, ls: seq<Line>, now: string)
    requires Valid(db) && CartSlot(db, userId).Some?
    ensures var i := CartSlot(db, userId).value;
            var c := db.carts[i];
            CartOk(c) &&
            Update(db.carts, c["id"].s, map["items" := EncodeLines(ls)], now)
              == Updated(db.carts[i := WithItems(c, ls, now)], Some(WithItems(c, ls, now)))
  {
    CartIdFindsSlot(db, userId);
  }

  /** After replacing the user's cart by one for the same user, the lookup of
      that user finds the replacement. */
  lemma OwnCartAfterReplace(db: Db, userId: string, r: Record)
    requires CartSlot(db, userId).Some?
    requires "userId" in r && r["userId"] == Str(userId)
    ensures FindCart(db.(carts := db.carts[CartSlot(db, userId).value := r]), userId) == Some(r)
  {
    var i := CartSlot(db, userId).value;
    MatchesByUser(db.carts[i], userId);
    MatchesByUser(r, userId);
    FirstIndexPointUpdate(db.carts, i, r, Matching(ByUser(userId)));
  }

  /** The lines of a cart found in a valid store are what its `items` encode. */
  lemma UserLinesOfCart(db: Db, userId: string, cart: Record)
    requires Valid(db) && FindCart(db, userId) == Some(cart)
    ensures CartOk(cart)
    ensures UserLines(db, userId) == Lines(cart)
    ensures cart["items"] == EncodeLines(Lines(cart))
  {
    FoundCartOk(db, userId);
    EncodeDecode(cart["items"]);
  }

  /** `carts` is `before`'s carts after `update(cart.id, { items })` wrote
      `saved` over the user's cart `cart`: in place at the cart's slot,
      `{...cart, items, id: cart.id, updatedAt: now}`. */
  predicate Saved(before: Db, carts: seq<Record>, saved: Record, userId: string, items: Value, now: string) {
    && CartSlot(before, userId).Some? && FindCart(before, userId).Some?
    && var i := CartSlot(before, userId).value;
       var c := FindCart(before, userId).value;
       && carts == before.carts[i := saved]
       && "id" in c && c["id"].Str?
       && IsMergeOf(saved, c, map["items" := items], c["id"].s, now)
  }

  /** `carts().update(cart.id, { items })` for the user's cart `cart`. */
  function SaveItems(db: Db, userId: string, ls: seq<Line>, now: string): (t: Tx<Option<Record>>)
    requires Valid(db) && FindCart(db, userId).Some? && NoDup(ls)
    ensures Valid(t.db)
    ensures PositiveQuantities(db) && Positive(ls) ==> PositiveQuantities(t.db)
    ensures t.db == db.(carts := t.db.carts) && |t.db.carts| == |db.carts|
    ensures t.out.Some? && FindCart(t.db, userId) == t.out
    ensures Get(t.out.value, "id") == Get(FindCart(db, userId).value, "id")
    ensures Get(t.out.value, "updatedAt") == Some(Str(now))
    ensures UserLines(t.db, userId) == ls
    ensures forall other :: other != userId ==> FindCart(t.db, other) == FindCart(db, other)
    ensures CartSlot(db, userId).Some?
    ensures var i := CartSlot(db, userId).value;
            var c := FindCart(db, userId).value;
            && t.db.carts == db.carts[i := t.out.value]
            && "id" in c && c["id"].Str?
            && IsMergeOf(t.out.value, c, map["items" := EncodeLines(ls)], c["id"].s, now)
    ensures Saved(db, t.db.carts, t.out.value, userId, EncodeLines(ls), now)
  {
    CartSlotFinds(db, userId);
    var cart := FindCart(db, userId).value;
    var i := CartSlot(db, userId).value;
    CartIdFindsSlot(db, userId);
    SaveItemsUpdate(db, userId, ls, now);
    var u := Update(db.carts, cart["id"].s, map["items" := EncodeLines(ls)], now);
    var r := WithItems(cart, ls, now);
    ReplaceCartOk(db.carts, i, r);
    OwnCartAfterReplace(db, userId, r);
    var db' := db.(carts := u.records);
    assert forall other :: other != userId ==> FindCart(db', other) == FindCart(db, other) by {
      forall other | other != userId
        ensures FindCart(db', other) == FindCart(db, other)
      {
        OtherCartsAfterReplace(db.carts, i, r, userId, other);
      }
    }
    assert PositiveQuantities(db) && Positive(ls) ==> PositiveQuantities(db') by {
      if PositiveQuantities(db) && Positive(ls) {
        forall j | 0 <= j < |db'.carts| && CartOk(db'.carts[j])
          ensures Positive(Lines(db'.carts[j]))
        {
          if j != i {
            assert db'.carts[j] == db.carts[j];
          }
        }
      }
    }
    Tx(db', u.record)
  }
}

=== FILE: storage.dfy ===
/** The storage service: the four collections, the `initialized` flag and the
    `init` lifecycle that seeds demo data into an empty store. Snapshot files
    are not modelled, so `_autoSave` is a no-op and the loaded state is the
    state `init` is given. */
module Storage {
  import opened Json
  import opened Store

  datatype Db = Db(
    products: seq<Record>,
    users: seq<Record>,
    orders: seq<Record>,
    carts: seq<Record>,
    initialized: bool)

  /** The state of a freshly constructed service. */
  const Blank := Db([], [], [], [], false)

  /** The password marker of the seeded admin; login accepts `admin` for it. */
  const DemoHash := "demo-hash"

  function DemoProduct(name: string, sku: string, price: real, stock: real, image: string,
                       description: string, category: string, tags: seq<Value>): Fields {
    map[
      "name" := Str(name), "sku" := Str(sku), "price" := Num(price),
      "currency" := Str("USD"), "stock" := Num(stock), "images" := Arr([Str(image)]),
      "description" := Str(description), "category" := Str(category),
      "tags" := Arr(tags), "active" := Bool(true)]
  }

  /** The three demo products. */
  function DemoProducts(): seq<Fields> {
    [ DemoProduct("Ocean Breeze T-Shirt", "TSHIRT-OCEAN-001", 24.99, 100.0,
                  "/assets/products/ocean-breeze-shirt.jpg",
                  "Lightweight cotton tee inspired by ocean vibes.", "Apparel",
                  [Str("tshirt"), Str("ocean"), Str("casual")]),
      DemoProduct("Amber Glow Hoodie", "HOODIE-AMBER-002", 49.99, 60.0,
                  "/assets/products/amber-glow-hoodie.jpg",
                  "Cozy hoodie with amber accent drawstrings.", "Apparel",
                  [Str("hoodie"), Str("amber"), Str("winter")]),
      DemoProduct("Waveform Headphones", "AUDIO-WAVE-003", 89.0, 40.0,
                  "/assets/products/waveform-headphones.jpg",
                  "Crisp audio with comfortable over-ear design.", "Electronics",
                  [Str("audio"), Str("headphones")]) ]
  }

  /** The demo admin user. */
  function DemoAdmin(): Fields {
    map[
      "email" := Str("admin@example.com"), "role" := Str("admin"), "name" := Str("Admin"),
      "passwordHash" := Str(DemoHash), "active" := Bool(true)]
  }

  /** `payloads.forEach((p) => create(p))`, the k-th create drawing `stamps(from + k)`. */
  function CreateEach(s: seq<Record>, payloads: seq<Fields>, stamps: nat -> Stamp, from: nat): (r: seq<Record>)
    ensures |r| == |s| + |payloads|
    ensures r[..|s|] == s
    ensures forall k :: 0 <= k < |payloads| ==> r[|s| + k] == Generated(stamps(from + k)) + payloads[k]
    decreases |payloads|
  {
    if payloads == [] then s
    else
      var r := CreateEach(Create(s, payloads[0], stamps(from)).records, payloads[1..], stamps, from + 1);
      assert forall k :: 1 <= k < |payloads| ==> payloads[1..][k - 1] == payloads[k];
      r
  }

  /** `_seed`: the demo products when there are no products, the admin when
      there are no users. Stamps 0-2 serve the products, stamp 3 the admin. */
  function Seed(db: Db, stamps: nat -> Stamp): (r: Db)
    ensures r.orders == db.orders && r.carts == db.carts && r.initialized == db.initialized
    ensures r.products == if db.products == [] then CreateEach([], DemoProducts(), stamps, 0) else db.products
    ensures r.users == if db.users == [] then [Generated(stamps(3)) + DemoAdmin()] else db.users
  {
    var products := if db.products == [] then CreateEach([], DemoProducts(), stamps, 0) else db.products;
    var users := if db.users == [] then Create([], DemoAdmin(), stamps(3)).records else db.users;
    db.(products := products, users := users)
  }

  /** `init`: a no-op once initialized; otherwise seeds when products or users
      are empty, then marks the service initialized. */
  function Init(db: Db, stamps: nat -> Stamp): (r: Db)
    ensures r.initialized
    ensures db.initialized ==> r == db
    ensures r.orders == db.orders && r.carts == db.carts
    ensures db.products != [] && db.users != [] ==> r == db.(initialized := true)
    ensures !db.initialized ==> r.products != [] && r.users != []
    ensures !db.initialized ==>
              |r.products| == |db.products| + (if db.products == [] then 3 else 0)
              && r.products[..|db.products|] == db.products
    ensures !db.initialized ==>
              |r.users| == |db.users| + (if db.users == [] then 1 else 0)
              && r.users[..|db.users|] == db.users
  {
    if db.initialized then db
    else
      var needsSeed := db.products == [] || db.users == [];
      var seeded := if needsSeed then Seed(db, stamps) else db;
      seeded.(initialized := true)
  }

  /** The seeded admin carries the admin role, the demo password marker and
      the demo email, and is active. */
  lemma SeededAdmin(db: Db, stamps: nat -> Stamp)
    requires !db.initialized && db.users == []
    ensures var admin := Init(db, stamps).users[0];
            && admin["role"] == Str("admin")
            && admin["passwordHash"] == Str(DemoHash)
            && admin["email"] == Str("admin@example.com")
            && admin["active"] == Bool(true)
            && admin["id"] == Str(stamps(3).id)
  {
  }

  /** Restarting a store that a first `init` seeded (a new process whose
      flag is clear, holding the same collections) seeds nothing a second time. */
  lemma RestartDoesNotReseed(db: Db, first: nat -> Stamp, second: nat -> Stamp)
    requires !db.initialized
    ensures var once := Init(db, first);
            Init(once.(initialized := false), second) == once
  {
    var once := Init(db, first);
    var again := once.(initialized := false);
    assert again.products != [] && again.users != [];
    assert again.(initialized := true) == once;
  }
}

=== FILE: store.dfy ===
/** The generic record collection behind each of the storage service's four
    collections (products, users, orders, carts): an insertion-ordered sequence
    of field-map records with linear lookups, append-on-create, merge-on-update
    and filter-on-remove. Id generation and the clock are supplied by the caller
    as a `Stamp` (for create) or a timestamp string (for update). */
module Store {
  import opened Wrappers
  import opened Json

  type Record = Fields

  /** What the id generator and the clock yield during one `create`. */
  datatype Stamp = Stamp(id: string, createdAt: string, updatedAt: string)

  /** A collection after `create`, and the record created. */
  datatype Written = Written(records: seq<Record>, record: Record)

  /** A collection after `update`, and the updated record (None for `null`). */
  datatype Updated = Updated(records: seq<Record>, record: Option<Record>)

  /** A collection after `remove`, and whether anything was removed. */
  datatype Removed = Removed(records: seq<Record>, changed: bool)

  /** `r.id === id`. */
  predicate HasId(r: Record, id: string) {
    "id" in r && StrictEquals(r["id"], Str(id))
  }

  /** `Object.entries(where).every(([k, v]) => r[k] === v)`. */
  predicate Matches(r: Record, where: Fields) {
    forall k :: k in where ==> k in r && StrictEquals(r[k], where[k])
  }

  function WithId(id: string): Record -> bool {
    r => HasId(r, id)
  }

  function Without(id: string): Record -> bool {
    r => !HasId(r, id)
  }

  function Matching(where: Fields): Record -> bool {
    r => Matches(r, where)
  }

  /** `Array.prototype.filter`: the records `keep` accepts, in their order. */
  function Filter(s: seq<Record>, keep: Record -> bool): (r: seq<Record>)
    ensures |r| <= |s|
    ensures forall x :: x in r <==> x in s && keep(x)
  {
    if s == [] then []
    else (if keep(s[0]) then [s[0]] else []) + Filter(s[1..], keep)
  }

  /** Filtering keeps each accepted record as often as it occurs and drops
      every other one. */
  lemma {:induction false} FilterCount(s: seq<Record>, keep: Record -> bool)
    ensures forall x :: multiset(Filter(s, keep))[x] == if keep(x) then multiset(s)[x] else 0
  {
    if s != [] {
      assert s == [s[0]] + s[1..];
      FilterCount(s[1..], keep);
    }
  }

  /** Filtering returns the whole sequence exactly when every record is
      accepted; otherwise it is strictly shorter. */
  lemma {:induction false} FilterKeepsAll(s: seq<Record>, keep: Record -> bool)
    ensures (forall j :: 0 <= j < |s| ==> keep(s[j])) ==> Filter(s, keep) == s
    ensures (exists j :: 0 <= j < |s| && !keep(s[j])) ==> |Filter(s, keep)| < |s|
  {
    if s != [] {
      FilterKeepsAll(s[1..], keep);
      if exists j :: 0 <= j < |s| && !keep(s[j]) {
        var j :| 0 <= j < |s| && !keep(s[j]);
        if j > 0 {
          assert !keep(s[1..][j - 1]);
        }
      }
      if forall j :: 0 <= j < |s| ==> keep(s[j]) {
        assert forall j :: 0 <= j < |s[1..]| ==> keep(s[1..][j]) by {
          forall j | 0 <= j < |s[1..]| ensures keep(s[1..][j]) {
            assert s[1..][j] == s[j + 1];
          }
        }
      }
    }
  }

  /** Filtering keeps relative order: it distributes over concatenation. */
  lemma {:induction false} FilterConcat(a: seq<Record>, b: seq<Record>, keep: Record -> bool)
    ensures Filter(a + b, keep) == Filter(a, keep) + Filter(b, keep)
  {
    if a == [] {
      assert a + b == b;
    } else {
      assert (a + b)[1..] == a[1..] + b;
      FilterConcat(a[1..], b, keep);
    }
  }

  /** `Array.prototype.findIndex`: the first index whose record satisfies `p`. */
  function FirstIndex(s: seq<Record>, p: Record -> bool): (r: Option<nat>)
    ensures r.Some? ==> r.value < |s| && p(s[r.value])
    ensures r.Some? ==> forall j :: 0 <= j < r.value ==> !p(s[j])
    ensures r.None? <==> forall j :: 0 <= j < |s| ==> !p(s[j])
  {
    if s == [] then None
    else if p(s[0]) then Some(0)
    else
      match FirstIndex(s[1..], p)
      case None => None
      case Some(i) => Some(i + 1)
  }

  function IndexOfId(s: seq<Record>, id: string): Option<nat> {
    FirstIndex(s, WithId(id))
  }

  /** `findAll(filterFn)`: every record when no filter is given, otherwise the
      records the filter accepts. */
  function FindAll(s: seq<Record>, filter: Option<Record -> bool>): (r: seq<Record>)
    ensures filter.None? ==> r == s
    ensures forall x :: x in r <==> x in s && (filter.None? || filter.value(x))
    ensures forall x :: multiset(r)[x] == if filter.None? || filter.value(x) then multiset(s)[x] else 0
  {
    if filter.None? then s
    else
      FilterCount(s, filter.value);
      Filter(s, filter.value)
  }

  /** `findById(id)`: the first record carrying `id`, or `null`. */
  function FindById(s: seq<Record>, id: string): (r: Option<Record>)
    ensures r.None? <==> forall j :: 0 <= j < |s| ==> !HasId(s[j], id)
    ensures r.Some? ==> exists i :: 0 <= i < |s| && s[i] == r.value && HasId(s[i], id)
                                   && forall j :: 0 <= j < i ==> !HasId(s[j], id)
  {
    match IndexOfId(s, id)
    case None => None
    case Some(i) => Some(s[i])
  }

  /** `findOne(where)`: the first record whose fields strictly equal every
      entry of `where`, or `null`. */
  function FindOne(s: seq<Record>, where: Fields): (r: Option<Record>)
    ensures r.None? <==> forall j :: 0 <= j < |s| ==> !Matches(s[j], where)
    ensures r.Some? ==> exists i :: 0 <= i < |s| && s[i] == r.value && Matches(s[i], where)
                                   && forall j :: 0 <= j < i ==> !Matches(s[j], where)
  {
    match FirstIndex(s, Matching(where))
    case None => None
    case Some(i) => Some(s[i])
  }

  /** `findOne({})` is the first record, or `null` on an empty collection. */
  lemma FindOneEmptyWhere(s: seq<Record>)
    ensures FindOne(s, map[]) == if s == [] then None else Some(s[0])
  {
    if s != [] {
      assert Matches(s[0], map[]);
    }
  }

  /** The generated fields `{id, createdAt, updatedAt}` of a new record. */
  function Generated(stamp: Stamp): Record {
    map["id" := Str(stamp.id), "createdAt" := Str(stamp.createdAt), "updatedAt" := Str(stamp.updatedAt)]
  }

  /** Field-by-field statement of `{id, createdAt, updatedAt, ...payload}`:
      the payload's members and the generated ones, and nothing else, the
      payload winning where both have a key. */
  predicate IsCreatedFrom(r: Record, payload: Fields, stamp: Stamp) {
    && r.Keys == payload.Keys + {"id", "createdAt", "updatedAt"}
    && (forall k :: k in payload ==> r[k] == payload[k])
    && ("id" !in payload ==> r["id"] == Str(stamp.id))
    && ("createdAt" !in payload ==> r["createdAt"] == Str(stamp.createdAt))
    && ("updatedAt" !in payload ==> r["updatedAt"] == Str(stamp.updatedAt))
  }

  /** `create(payload)`: `{id, createdAt, updatedAt, ...payload}` appended at the end. */
  function Create(s: seq<Record>, payload: Fields, stamp: Stamp): (w: Written)
    ensures w.records == s + [w.record]
    ensures w.record.Keys == payload.Keys + {"id", "createdAt", "updatedAt"}
    ensures forall k :: k in payload ==> w.record[k] == payload[k]
    ensures "id" !in payload ==> w.record["id"] == Str(stamp.id)
    ensures "createdAt" !in payload ==> w.record["createdAt"] == Str(stamp.createdAt)
    ensures "updatedAt" !in payload ==> w.record["updatedAt"] == Str(stamp.updatedAt)
    ensures IsCreatedFrom(w.record, payload, stamp)
  {
    var r := Generated(stamp) + payload;
    Written(s + [r], r)
  }

  /** Field-by-field statement of `{...prev, ...updates, id, updatedAt: now}`. */
  predicate IsMergeOf(r: Record, prev: Record, updates: Fields, id: string, now: string) {
    && r.Keys == prev.Keys + updates.Keys + {"id", "updatedAt"}
    && r["id"] == Str(id)
    && r["updatedAt"] == Str(now)
    && (forall k :: k in updates && k != "id" && k != "updatedAt" ==> r[k] == updates[k])
    && (forall k :: k in prev && k !in updates && k != "id" && k != "updatedAt" ==> r[k] == prev[k])
  }

  /** `update(id, updates)`: merges `updates` into the first record carrying
      `id`, keeps that id and refreshes `updatedAt`; `null` when no record
      carries `id`. */
  function Update(s: seq<Record>, id: string, updates: Fields, now: string): (u: Updated)
    ensures |u.records| == |s|
    ensures u.record.None? <==> forall j :: 0 <= j < |s| ==> !HasId(s[j], id)
    ensures u.record.None? ==> u.records == s
    ensures u.record.Some? ==> IndexOfId(s, id).Some?
    ensures u.record.Some? ==>
              var i := IndexOfId(s, id).value;
              u.records == s[i := u.record.value] && IsMergeOf(u.record.value, s[i], updates, id, now)
  {
    match IndexOfId(s, id)
    case None => Updated(s, None)
    case Some(i) =>
      var r := (s[i] + updates)["id" := Str(id)]["updatedAt" := Str(now)];
      Updated(s[i := r], Some(r))
  }

  /** `remove(id)`: drops every record carrying `id`; reports whether the
      collection shrank. */
  function Remove(s: seq<Record>, id: string): (d: Removed)
    ensures d.changed <==> exists j :: 0 <= j < |s| && HasId(s[j], id)
    ensures !d.changed ==> d.records == s
    ensures forall x :: x in d.records <==> x in s && !HasId(x, id)
    ensures forall x :: multiset(d.records)[x] == if HasId(x, id) then 0 else multiset(s)[x]
  {
    var kept := Filter(s, Without(id));
    FilterCount(s, Without(id));
    FilterKeepsAll(s, Without(id));
    Removed(kept, |kept| != |s|)
  }

  /** Removal keeps the relative order of the remaining records. */
  lemma {:induction false} RemoveConcat(a: seq<Record>, b: seq<Record>, id: string)
    ensures Remove(a + b, id).records == Remove(a, id).records + Remove(b, id).records
  {
    FilterConcat(a, b, Without(id));
  }

  /** Replacing one record by another that `p` judges alike leaves the first
      match where it was. */
  lemma {:induction false} FirstIndexPointUpdate(s: seq<Record>, i: nat, r: Record, p: Record -> bool)
    requires i < |s|
    requires p(r) == p(s[i])
    ensures FirstIndex(s[i := r], p) == FirstIndex(s, p)
  {
    if i > 0 {
      assert s[i := r][1..] == s[1..][i - 1 := r];
      FirstIndexPointUpdate(s[1..], i - 1, r, p);
    }
  }

  /** Appending a record only matters to a search that found nothing before. */
  lemma {:induction false} FirstIndexAppend(s: seq<Record>, r: Record, p: Record -> bool)
    ensures FirstIndex(s + [r], p) ==
              if FirstIndex(s, p).Some? then FirstIndex(s, p)
              else if p(r) then Some(|s|) else None
  {
    if s != [] {
      assert (s + [r])[1..] == s[1..] + [r];
      FirstIndexAppend(s[1..], r, p);
    }
  }

  /** Appending a record only matters to a `findOne` that found nothing before. */
  lemma FindOneAppend(s: seq<Record>, r: Record, where: Fields)
    ensures FindOne(s + [r], where) ==
              if FindOne(s, where).Some? then FindOne(s, where)
              else if Matches(r, where) then Some(r) else None
  {
    FirstIndexAppend(s, r, Matching(where));
    match FirstIndex(s, Matching(where))
    case Some(i) => assert (s + [r])[i] == s[i];
    case None =>
  }

  /** In a collection whose ids are pairwise distinct, looking up the id of
      the record at `i` finds `i`. */
  lemma IndexOfDistinctId(s: seq<Record>, i: nat, id: string)
    requires i < |s| && HasId(s[i], id)
    requires forall j, k :: 0 <= j < k < |s| && HasId(s[j], id) ==> !HasId(s[k], id)
    ensures IndexOfId(s, id) == Some(i)
  {
    assert WithId(id)(s[i]);
  }
}

=== FILE: wrappers.dfy ===
/** The optional-value datatype used for lookups that may find nothing
    (JavaScript's `null` / `undefined` results). */
module Wrappers {

  datatype Option<+T> = None | Some(value: T) {

    /** Returns the value in Some, or `default` when None. */
    function GetOr(default: T): T {
      match this
      case Some(v) => v
      case None => default
    }
  }
}
